=== FILE: README.md ===
# Storefront rules, modelled in Dafny

This project models the rules underneath a React Native spare-parts storefront: a dealer app with a catalogue, a cart, campaigns, notifications and a mock login. Most of the app is view code. What is modelled here is the logic those views run:

- **The cart screen's controller** (`useCartScreen`). Guarded minus, plus, a typed quantity with digit sanitising, delete by id, the loader and the footer total.
- **The cart screen's delete confirmation dialog.**
- **The add-to-cart flow.** The quantity modal's digit-string field, and the parts screen's selection and modal state with its cart counter.
- **The campaign carousel.** Its timer arithmetic and dot rendering.
- **The campaign detail page.** `formatDate`, the period line and the section rules.
- **The request layer** (`ApiService`). Headers, request bodies and how a response is classified.
- **The endpoint builders** of the parts, notification and cart services.
- **The session store** (`AuthService`) over a key-value storage, and the login form's handler.

Every handler is one atomic transition between immutable records. Whatever the outside world answers is an explicit input:

- the server's `result.success` is a `bool`;
- a fetch outcome is `Threw` or `Received(status, text)`;
- `JSON.parse` is a function `string -> Option<Json>`;
- `JSON.stringify` and percent-encoding are functions passed in;
- a storage fault is the position of the first storage call that throws.

Each service call a cart handler makes is returned beside the new items, so "no request is sent" can be stated too.

The modules follow the source files:

| module | file | models |
|---|---|---|
| `Wrappers` | wrappers.dfy | `Option` |
| `Text` | text.dfy | JavaScript's `parseInt` on strings, `toString` of integers, digit stripping, `split`/`join`, `includes` |
| `JsonData` | json.dfy | JSON values, JavaScript truthiness, property lookup |
| `Api` | api.dfy | `src/services/api.ts` |
| `Query` | query.dfy | the `URLSearchParams` append/serialise pattern the services share |
| `PartsService`, `NotificationService`, `CartService`, `AuthService` | parts_service.dfy, notification_service.dfy, cart_service.dfy, auth_service.dfy | `src/services/*.ts` |
| `LoginScreen` | login_screen.dfy | `src/Screens/Auth/LoginScreen.tsx` |
| `CartController` | cart_controller.dfy | `src/Screens/Cart/hooks/useCartScreen.ts` |
| `CartScreen` | cart_screen.dfy | `src/Screens/Cart/CartScreen.tsx` |
| `QuantityModal` | quantity_modal.dfy | `src/components/parts/QuantityModal.tsx` |
| `PartsScreen` | parts_screen.dfy | `src/Screens/Parts/hooks/usePartsScreen.ts` and its modal wiring |
| `CampaignSlider` | campaign_slider.dfy | `src/components/home/CampaignSlider.tsx` |
| `CampaignDetail` | campaign_detail.dfy | `src/Screens/Campaign/CampaignDetailScreen.tsx` |

Two places where the code's behaviour differs from what its shape suggests:

- **A non-2xx response whose body parses to `null`.** `result.error` then throws inside the `try`, so the caller gets `NETWORK_ERROR`, not `SERVER_ERROR` (`Api.NullErrorBodyIsNetworkError`).
- **`confirmDelete` with an empty pending id.** The empty id is falsy, so nothing is deleted, but the success alert still shows (`CartScreen.EmptyIdDeletesNothing`).

## Model

| member | source | states |
|---|---|---|
| CartController.Find | src/Screens/Cart/hooks/useCartScreen.ts:30 | `find` succeeds exactly when some item has the id, and returns an item of the cart with that id |
| CartController.FindIsFirst | src/Screens/Cart/hooks/useCartScreen.ts:30 | the item `find` returns is the first holder: it sits at a position with no holder of the id before it |
| CartController.SetQuantity | src/Screens/Cart/hooks/useCartScreen.ts:35-37 | the `map` gives every item with the id the new quantity and subtotal price × quantity, and leaves every other item and the order as they were |
| CartController.Remove | src/Screens/Cart/hooks/useCartScreen.ts:78 | the `filter` keeps every item without the id as often as it occurred and none with it |
| CartController.RemoveAppend | src/Screens/Cart/hooks/useCartScreen.ts:78 | removal distributes over concatenation, so the items that stay keep their relative order |
| CartController.Minus | src/Screens/Cart/hooks/useCartScreen.ts:29-42 | with the id absent or its quantity at most 1, no request is sent and nothing changes; otherwise an update to quantity − 1 is requested, applied to that item only on success, and discarded on failure |
| CartController.Plus | src/Screens/Cart/hooks/useCartScreen.ts:44-57 | no request for an unknown id; otherwise an update to quantity + 1 is requested, applied to that item only on success, and discarded on failure |
| CartController.TypedQuantity | src/Screens/Cart/hooks/useCartScreen.ts:60-61 | the quantity sent for typed text is the value of its digits, or 1 when it has none or they read as zero, so it is always at least 1 |
| CartController.QuantityChange | src/Screens/Cart/hooks/useCartScreen.ts:59-73 | the update is requested for any id; the items change only on success and only when the id is present, and then only that item changes |
| CartController.Delete | src/Screens/Cart/hooks/useCartScreen.ts:75-82 | a DELETE is always requested; on success exactly the items with the id are gone, with the rest in order; on failure nothing changes |
| CartController.LoadStart | src/Screens/Cart/hooks/useCartScreen.ts:13 | loading starts with the items still shown |
| CartController.LoadFinish | src/Screens/Cart/hooks/useCartScreen.ts:14-26 | a successful load with data shows the server's items, or none when `items` is missing; a failure or a throw shows an empty cart; loading always ends |
| CartController.LoadForgetsPrevious | src/Screens/Cart/hooks/useCartScreen.ts:12-27 | the loaded cart does not depend on the cart shown before, and a failed load totals 0 |
| CartController.Total | src/Screens/Cart/hooks/useCartScreen.ts:84-90 | the total of an empty cart is 0 and of a one-item cart its subtotal; `TotalAppend`, `TotalNonNegative` and `TotalAfterRemove` state the rest |
| CartController.TotalNonNegative | src/Screens/Cart/hooks/useCartScreen.ts:84-90 | with no negative subtotal the total is not negative |
| CartController.TotalAppend | src/Screens/Cart/hooks/useCartScreen.ts:84-90 | the total, a sum of stored subtotals, is additive over concatenation |
| CartController.MinusKeepsValid | src/Screens/Cart/hooks/useCartScreen.ts:29-42 | minus keeps every quantity at least 1 and every subtotal equal to price × quantity, whatever the server answers |
| CartController.PlusKeepsValid | src/Screens/Cart/hooks/useCartScreen.ts:44-57 | plus keeps the same cart invariant |
| CartController.QuantityChangeKeepsValid | src/Screens/Cart/hooks/useCartScreen.ts:59-73 | a typed quantity keeps the same cart invariant |
| CartController.DeleteKeepsValid | src/Screens/Cart/hooks/useCartScreen.ts:75-82 | delete keeps the same cart invariant |
| CartController.TotalAfterRemove | src/Screens/Cart/hooks/useCartScreen.ts:78-90 | after a delete the total drops by exactly the subtotals of the removed items |
| CartController.TotalAfterUpdate | src/Screens/Cart/hooks/useCartScreen.ts:35-37 | after an update of one id the total loses that id's old subtotals and gains price × new quantity per item |
| CartController.CountAfterUpdate | src/Screens/Cart/hooks/useCartScreen.ts:35-37 | an update neither adds nor removes items with the id |
| CartController.TotalAfterUniqueUpdate | src/Screens/Cart/hooks/useCartScreen.ts:35-37 | for an id held by one item, the total changes by that item's new subtotal minus its old one |
| CartController.PlusRaisesTotalByPrice | src/Screens/Cart/hooks/useCartScreen.ts:44-57 | a successful plus on a uniquely held, consistent item raises the footer total by its unit price |
| CartController.MinusLowersTotalByPrice | src/Screens/Cart/hooks/useCartScreen.ts:29-42 | a successful minus on such an item with quantity above 1 lowers the total by its unit price |
| CartController.FindUnique | src/Screens/Cart/hooks/useCartScreen.ts:30 | when only one item has the id, `find` returns that item |
| CartController.HolderIsUnique | src/Screens/Cart/hooks/useCartScreen.ts:30 | when only one item has the id, it sits at exactly one position |
| CartController.MinusThenPlusRestores | src/Screens/Cart/hooks/useCartScreen.ts:29-57 | in a valid cart, a successful minus then plus on a uniquely held item with quantity above 1 gives back the original cart |
| CartController.RepeatedMinus | src/Screens/Cart/hooks/useCartScreen.ts:29-42 | in a one-item cart, n successful minus presses on an item with quantity above n lower it by n, keep the subtotal consistent and send n requests |
| CartController.NineMinusPresses | src/Screens/Cart/hooks/useCartScreen.ts:29-42 | an item at 12 × 23500 pressed nine times ends at 3 × 23500 = 70500 after nine requests |
| CartController.MinusStopsAtOne | src/Screens/Cart/hooks/useCartScreen.ts:30-31 | minus on a quantity of 1 sends nothing and changes nothing |
| CartScreen.Initial | src/Screens/Cart/CartScreen.tsx:41-43 | the screen starts with no dialog, no pending id and no success alert |
| CartScreen.AskDelete | src/Screens/Cart/CartScreen.tsx:45-48 | a swipe records the id and opens the dialog; no item is removed |
| CartScreen.ConfirmDelete | src/Screens/Cart/CartScreen.tsx:50-57 | the delete runs once, with the pending id, exactly when a non-empty id is pending; in every case the dialog closes, the id is cleared and the success alert shows |
| CartScreen.CancelDelete | src/Screens/Cart/CartScreen.tsx:59-62 | cancelling closes the dialog and forgets the id; nothing is deleted |
| CartScreen.DismissSuccess | src/Screens/Cart/CartScreen.tsx:152 | the success alert's OK hides that alert and nothing else |
| CartScreen.AskThenCancel | src/Screens/Cart/CartScreen.tsx:45-62 | asking then cancelling returns to the screen as it was, with no dialog and no pending id |
| CartScreen.AskThenConfirmRemoves | src/Screens/Cart/CartScreen.tsx:45-57 | asking then confirming with the server's agreement removes exactly that id's items and lowers the footer total by their subtotals |
| CartScreen.EmptyIdDeletesNothing | src/Screens/Cart/CartScreen.tsx:50-56 | an empty pending id deletes nothing, yet the success alert shows |
| QuantityModal.Initial | src/components/parts/QuantityModal.tsx:26-27 | the field starts as exactly "1", with no alert |
| QuantityModal.ParsedOr | src/components/parts/QuantityModal.tsx:32 | on a digit-only field, `parseInt` with the fallback d gives the number shown, or d when the field is empty or reads as zero |
| QuantityModal.Minus | src/components/parts/QuantityModal.tsx:31-36 | a field showing at most 1 (empty, "0", "1") is unchanged; otherwise it shows one less, without leading zeros; it stays digit-only |
| QuantityModal.Plus | src/components/parts/QuantityModal.tsx:38-41 | the field shows one more than before, so empty or "0" becomes "1"; it stays digit-only |
| QuantityModal.Edit | src/components/parts/QuantityModal.tsx:43-46 | the field becomes digit-only, and typed digits are kept as typed |
| QuantityModal.EditKeepsExactlyTheDigits | src/components/parts/QuantityModal.tsx:43-46 | an edit keeps every digit of the text as often as typed, drops every other character and keeps the order |
| QuantityModal.Confirm | src/components/parts/QuantityModal.tsx:48-57 | for a part not in stock only the alert shows; otherwise `onConfirm` gets the number shown, or 1 when it is empty or zero, the field resets to "1" and the modal closes |
| QuantityModal.DismissAlert | src/components/parts/QuantityModal.tsx:115 | the stock alert's OK hides the alert and keeps the quantity |
| QuantityModal.ConfirmedIsPositive | src/components/parts/QuantityModal.tsx:53-54 | a confirmed quantity is at least 1 |
| QuantityModal.HandlersKeepDigits | src/components/parts/QuantityModal.tsx:31-57 | from a digit-only field, minus, plus, any edit, the alert's OK and confirm all leave the field digit-only |
| QuantityModal.MinusStaysPositive | src/components/parts/QuantityModal.tsx:31-36 | minus never takes a field showing 1 or more below 1 |
| QuantityModal.PlusMinusInverse | src/components/parts/QuantityModal.tsx:31-41 | minus undoes plus on a field showing at least 1 without leading zeros, and plus undoes minus where minus acts |
| PartsScreen.Initial | src/Screens/Parts/hooks/usePartsScreen.ts:5-8 | the counter starts at 3 with both modals hidden and nothing selected |
| PartsScreen.ProductPress | src/Screens/Parts/hooks/usePartsScreen.ts:10-13 | selects the product and opens the detail modal; the quantity modal and the counter are untouched |
| PartsScreen.AddPress | src/Screens/Parts/hooks/usePartsScreen.ts:15-18 | selects the product and opens the quantity modal; the detail modal and the counter are untouched |
| PartsScreen.AddToCart | src/Screens/Parts/hooks/usePartsScreen.ts:20-23 | closes the detail modal, opens the quantity modal, keeps the selection |
| PartsScreen.ConfirmQuantity | src/Screens/Parts/hooks/usePartsScreen.ts:25-29 | the counter grows by the quantity and the selection is cleared; modal flags are unchanged |
| PartsScreen.CloseDetail | src/Screens/Parts/hooks/usePartsScreen.ts:31-33 | clears only the detail flag |
| PartsScreen.CloseQuantity | src/Screens/Parts/hooks/usePartsScreen.ts:35-37 | clears only the quantity flag |
| PartsScreen.ConfirmInModal | src/Screens/Parts/PartsScreen.tsx:162-166 | with nothing selected the modal is not shown and nothing happens; confirming a part not in stock changes nothing but the modal's alert, which it shows |
| PartsScreen.ConfirmGrowsCartCount | src/Screens/Parts/PartsScreen.tsx:162-166 | confirming a ready part raises the counter by the number shown (1 for an empty or zero field), clears the selection, closes the quantity modal and resets the field |
| PartsScreen.AddOneFromStart | src/Screens/Parts/hooks/usePartsScreen.ts:5-29 | from the start, adding one ready part through the quantity modal takes the counter from 3 to 4 |
| PartsScreen.DetailThenAddMatchesAdd | src/Screens/Parts/hooks/usePartsScreen.ts:10-33 | going through the detail modal ends where pressing add and closing the detail modal does |
| CampaignSlider.JsRem | src/components/home/CampaignSlider.tsx:30 | JavaScript's remainder lies strictly between −n and n, takes the sign of the dividend, and differs from the dividend by a multiple of n, which fixes its value |
| CampaignSlider.Initial | src/components/home/CampaignSlider.tsx:22 | the slider starts at index 0 with its props as given and no scroll yet |
| CampaignSlider.Fire | src/components/home/CampaignSlider.tsx:25-36 | without auto-slide or with fewer than two campaigns nothing happens; otherwise the index becomes the next one, wrapping from the last to 0; for any previous index the new one is below the count and congruent to the previous one plus 1; the view scrolls to index × card width |
| CampaignSlider.ScrollEnd | src/components/home/CampaignSlider.tsx:51-54 | the end of a swipe sets only the index |
| CampaignSlider.FireTimesKeepsProps | src/components/home/CampaignSlider.tsx:40 | ticks never change what the timer depends on, so it keeps running |
| CampaignSlider.FiringsCycle | src/components/home/CampaignSlider.tsx:28-36 | k ticks from index i reach (i + k) mod n |
| CampaignSlider.FullCycleReturns | src/components/home/CampaignSlider.tsx:22-36 | from the start, the first n ticks visit 0, 1, …, n − 1 in order and the n-th returns to 0 |
| CampaignSlider.Render | src/components/home/CampaignSlider.tsx:42-80 | an empty list draws nothing; otherwise every card, and dots only for more than one card, dot i active exactly when i is the index |
| CampaignSlider.OneActiveDot | src/components/home/CampaignSlider.tsx:69-79 | with the index on a card exactly one dot is active |
| CampaignSlider.FiringMovesActiveDot | src/components/home/CampaignSlider.tsx:28-36 | after a tick the active dot is the card the view scrolled to |
| CampaignDetail.DayText | src/Screens/Campaign/CampaignDetailScreen.tsx:35 | the day prints as its number without leading zeros, which reads back as the number `parseInt` found; "NaN" when missing, empty, or one `parseInt` finds no number in |
| CampaignDetail.MonthText | src/Screens/Campaign/CampaignDetailScreen.tsx:33-35 | months 1 to 12 print as their short names; any other number, a missing or empty month, or one `parseInt` finds no number in, prints "undefined" |
| CampaignDetail.FormatDate | src/Screens/Campaign/CampaignDetailScreen.tsx:32-36 | the result ends with a space and the text before the first dash, copied verbatim; `FormatWellFormedDate` and `FormatWithoutDashes` give the whole result |
| CampaignDetail.SplitDate | src/Screens/Campaign/CampaignDetailScreen.tsx:34 | "Y-M-D" with dash-free parts splits into exactly Y, M and D |
| CampaignDetail.FormatWellFormedDate | src/Screens/Campaign/CampaignDetailScreen.tsx:32-36 | a digit date with month 1 to 12 prints as day without leading zeros, month name and the year as written |
| CampaignDetail.MonthIgnoresLeadingZeros | src/Screens/Campaign/CampaignDetailScreen.tsx:33-35 | "3" and "03" both name March, and the table runs from "Jan" to "Dec" |
| CampaignDetail.FormatExample | src/Screens/Campaign/CampaignDetailScreen.tsx:32-36 | "2024-03-05" prints as "5 Mar 2024" |
| CampaignDetail.FormatWithoutDashes | src/Screens/Campaign/CampaignDetailScreen.tsx:34-35 | a date without dashes prints as "NaN undefined " followed by the text |
| CampaignDetail.Period | src/Screens/Campaign/CampaignDetailScreen.tsx:106 | the period line is the formatted start, then " - ", then the formatted end |
| CampaignDetail.TextSection | src/Screens/Campaign/CampaignDetailScreen.tsx:111 | a text section shows exactly when its text is present and non-empty |
| CampaignDetail.ListSection | src/Screens/Campaign/CampaignDetailScreen.tsx:118 | a list section shows exactly when its list is present and non-empty |
| CampaignDetail.Render | src/Screens/Campaign/CampaignDetailScreen.tsx:38-136 | loading wins; not found exactly when not loading and there is no campaign; otherwise the detail with the campaign's title, image and period, and each section that has content carrying the campaign's own text or list |
| Api.BodyFor | src/services/api.ts:87 | a body is sent exactly when the data is truthy, and it is that data |
| Api.Get | src/services/api.ts:78-82 | a GET to the endpoint without a body |
| Api.Post | src/services/api.ts:84-89 | a POST to the endpoint, with a body exactly when the data is truthy |
| Api.Put | src/services/api.ts:91-96 | a PUT to the endpoint, with a body exactly when the data is truthy |
| Api.Delete | src/services/api.ts:98-102 | a DELETE to the endpoint without a body |
| Api.BuildHeaders | src/services/api.ts:21-28 | JSON content type unless the caller sets one; the caller's other headers kept; the bearer token written last exactly when a non-empty token exists and the endpoint does not contain "/auth/login" |
| Api.LoginCarriesNoToken | src/services/api.ts:26 | a login request never carries the stored token |
| Api.FailureReadsBack | src/services/api.ts:56-62 | a failure object reads back `success: false` and the error it was built with |
| Api.Classify | src/services/api.ts:37-75 | a throw is a network error; an unparsable body is a parse error whatever the status; an empty 2xx body is `{}`; a parsed 2xx body is returned as is; a non-2xx result is a failure with a truthy error: `null` body gives a network error, a truthy `error` is passed through, and anything else is SERVER_ERROR carrying the truthy `message` or the fixed text |
| Api.Send | src/services/api.ts:21-75 | `request` always resolves: a throw or a non-2xx status gives `success: false` with a truthy error; a non-empty token goes out as a bearer header unless the endpoint contains the login path, and a login call without a caller-supplied header carries none; a content type is always set (`BuildHeaders` and `Classify` give the details) |
| Api.ServerErrorUsesMessage | src/services/api.ts:55-62 | a non-2xx object body without a truthy `error` gives SERVER_ERROR with the body's truthy `message`, or the fixed text |
| Api.ServerErrorPassesThrough | src/services/api.ts:55-58 | a non-2xx body with a truthy `error` passes it through verbatim |
| Api.EmptyErrorBodyIsServerError | src/services/api.ts:42-61 | a non-2xx response with an empty body is SERVER_ERROR with the fixed message |
| Api.NullErrorBodyIsNetworkError | src/services/api.ts:55-75 | a non-2xx body that parses to `null` ends as NETWORK_ERROR |
| Query.Collect | src/services/parts.ts:37-42 | the appended pairs are exactly the present parameters, each with its value, in the fixed key order |
| Query.Endpoint | src/services/parts.ts:44-45 | no pairs give the bare path; otherwise the path, "?" and the serialised pairs |
| Query.SerializeEmpty | src/services/parts.ts:44 | the serialised query is empty exactly when there are no pairs |
| Query.ParseSerialize | src/services/parts.ts:44 | with an encoder that escapes '&' and '=' and a decoder that inverts it, reading the query back gives the pairs |
| PartsService.ListPairs | src/services/parts.ts:37-42 | the list query holds exactly the truthy parameters, in the order page, limit, search, category, sortBy, order |
| PartsService.GetPartsList | src/services/parts.ts:34-48 | a GET without body to "/parts", followed by "?" and the query only when a parameter is present |
| PartsService.FalsyParamsGiveBarePath | src/services/parts.ts:37-45 | with every parameter absent or falsy the endpoint is exactly "/parts" |
| PartsService.ListQueryReadsBack | src/services/parts.ts:44-45 | otherwise the endpoint is "/parts?" followed by a query that reads back as the parameters |
| PartsService.GetPartDetail | src/services/parts.ts:50-52 | a bodiless GET whose endpoint is "/parts/" followed by the part number |
| PartsService.DetailRoundTrip | src/services/parts.ts:50-52 | the detail endpoint is "/parts/" followed by the part number, which reads back from it |
| PartsService.ListIsNotDetail | src/services/parts.ts:45-51 | a list endpoint is never read as a detail endpoint |
| NotificationService.NotificationPairs | src/services/notification.ts:20-21 | the query holds exactly the truthy page and limit, page first |
| NotificationService.GetNotifications | src/services/notification.ts:18-27 | a GET without body to "/notifications", followed by "?" and the query only when a parameter is present |
| NotificationService.NotificationQueryShape | src/services/notification.ts:20-24 | both present give page then limit; neither gives exactly "/notifications" |
| NotificationService.MarkAsRead | src/services/notification.ts:29-31 | a bodiless PUT whose endpoint is "/notifications/" followed by the id and "/read" |
| NotificationService.MarkAsReadRoundTrip | src/services/notification.ts:29-31 | mark-as-read is a PUT without body whose path "/notifications/<id>/read" gives back the id |
| CartService.ToRequest | src/services/cart.ts:33-51 | every call goes to a path under "/cart"; add and update carry a body and the others none; remove and clear are exactly the DELETE calls |
| CartService.RoundTrip | src/services/cart.ts:33-51 | each call's method, path and body identify the call, except that `clearCart` and `removeFromCart("clear")` send the same request |
| CartService.ClearIsRemoveOfClear | src/services/cart.ts:45-51 | `clearCart` sends the same DELETE as `removeFromCart("clear")` |
| AuthService.Login | src/services/auth.ts:20-43 | any credentials log in when both writes succeed, storing the fixed token and a dealer user with the given username; a failing write returns "Login gagal" and keeps earlier writes; no other key changes |
| AuthService.Logout | src/services/auth.ts:45-52 | both keys are removed when the calls succeed; a failure keeps what was not yet removed and is swallowed; no other key changes |
| AuthService.IsLoggedIn | src/services/auth.ts:54-61 | true exactly when the storage can be read and holds a token |
| AuthService.GetToken | src/services/auth.ts:63-69 | the stored token when readable, otherwise null |
| AuthService.GetUserData | src/services/auth.ts:71-78 | the parsed user record when one is stored and parses; null when it is absent, empty, unreadable or unparsable |
| AuthService.LogoutEndsSession | src/services/auth.ts:45-78 | after a logout that succeeds there is no token, no session and no user |
| AuthService.LoginThenRead | src/services/auth.ts:20-78 | after a login that succeeds the readers return the token and user it wrote |
| AuthService.FailedLoginCanLeaveToken | src/services/auth.ts:30-42 | a login whose second write throws fails, yet leaves a token so `isLoggedIn` is true |
| LoginScreen.InitialForm | src/Screens/Auth/LoginScreen.tsx:26-31 | the screen mounts with empty fields, not loading, no alert and on the login route |
| LoginScreen.PressOnFreshScreen | src/Screens/Auth/LoginScreen.tsx:26-37 | pressing login on the untouched screen calls nothing and only shows the fill-in alert |
| LoginScreen.HandleLogin | src/Screens/Auth/LoginScreen.tsx:34-51 | an empty field shows the fill-in message and calls nothing; otherwise login is called with the email and password, loading is on during the call and off after it, success goes to the main tabs, and failure shows the returned message or "Login gagal" |
| LoginScreen.DismissAlert | src/Screens/Auth/LoginScreen.tsx:118 | the alert's OK hides the alert and nothing else |
| LoginScreen.RejectedPressThenOk | src/Screens/Auth/LoginScreen.tsx:34-51 | a rejected press followed by OK leaves an idle form as it was, apart from the message |
| Text.ParseIntOfDigits | src/components/parts/QuantityModal.tsx:32 | `parseInt` of a digit string is its value, and NaN for the empty string |
| Text.KeepDigitsCounts | src/Screens/Cart/hooks/useCartScreen.ts:60 | removing non-digits keeps each digit as often as it occurs and no other character |
| Text.KeepDigitsAppend | src/Screens/Cart/hooks/useCartScreen.ts:60 | removing non-digits keeps the order of the digits |
| Text.ParseIntOfIntToString | src/Screens/Campaign/CampaignDetailScreen.tsx:35 | `parseInt` reads back every integer that `toString` writes, negative ones included |
| Text.ToDecimalOfDigits | src/components/parts/QuantityModal.tsx:34 | `toString` of the value of a digit string without leading zeros gives the string back |
| Text.SplitJoin | src/Screens/Campaign/CampaignDetailScreen.tsx:34 | splitting the join of dash-free parts gives the parts back |
| Text.JoinSplit | src/Screens/Campaign/CampaignDetailScreen.tsx:34 | joining the split pieces gives the text back |

## Left out

- Every `number` is an integer: prices, subtotals, totals, cart item quantities, the parts screen's cart counter, the `quantity` and numeric `partId` of the cart requests, and `page` and `limit`. The source's `number` is a floating-point double, so fractional values (a quantity of 1.5, a page of 1.5 written as "1.5") and rounding are not modelled.
- `formatPrice` (`toLocaleString('id-ID')`) is not modelled: it is locale-library behaviour.
- The scroll-end index `Math.round(offset / CARD_WIDTH)` is a floating-point rounding. `CampaignSlider.ScrollEnd` takes the rounded index as an input.
- The card width is derived from the window's width. `CampaignSlider` takes it as an integer input.
- Timers are discrete firings. The 3000 ms interval and clearing the timer when the props change are not modelled.
- Concurrency is not modelled. Overlapping cart requests, out-of-order responses and stale `cartItems` closures are excluded; each handler is one atomic step.
- `fetch`, `response.text()`, `JSON.parse`, `JSON.stringify` and `AsyncStorage` are not modelled; they are inputs or function parameters.
- The API base URL and the console logging are not modelled.
- Percent-encoding by `URLSearchParams` (the application/x-www-form-urlencoded serializer of section 5.2 of the WHATWG URL Standard) is a function parameter. The read-back lemmas assume only that it escapes '&' and '=' and that a decoder inverts it.
- `parseInt` is modelled on exact integers. Precision loss above 2^53 is not modelled, and neither is the exponent form of very large numbers in `toString`.
- Header names are compared exactly. The case-insensitive merge a real `Headers` object performs is not modelled.
- The text input's `maxLength` and the numeric keyboard do not constrain the modelled quantity field; any text can reach the handlers.
- `PartsScreen.tsx` reads `products`, `campaigns` and `loading`, which `usePartsScreen` does not return. Only its quantity-modal wiring is modelled, not its rendering.
- `LoginScreen` passes `{ email, password }`, while `AuthService.login` reads `username`. Each side is modelled as written and they are not joined.
- The password-visibility toggle on the login screen is not modelled. It is view state with no rule.
- The fetch-and-set hooks for home, campaign list and campaign detail are not modelled: they are glue with no rule beyond "set on success".
- The fixed-path services for campaigns and the dashboard, the services index, the API config and the mock product data are not modelled.
- Layout and presentational components are not modelled.
- CartController.Find: its contract says the result is a holder of the id; that it is the first holder is stated by `CartController.FindIsFirst`, kept apart because the clause made the handlers' proofs too costly.
- CartController.Remove: its contract states the multiset of what remains. The order of the survivors is stated separately, by `CartController.RemoveAppend`.

=== FILE: api.dfy ===
/** The shared request layer (`ApiService` in src/services/api.ts): which
    headers a call carries, which body `post`/`put` attach, and how every
    outcome of the network call is folded into one JSON result. The network
    call itself is an input: it either throws or yields a status and a body
    text; `JSON.parse` is the parameter `parse`. */
module Api {
  import opened Wrappers
  import opened Text
  import opened JsonData

  datatype Method = GET | POST | PUT | DELETE

  /** What a service wrapper hands to the request layer: the method, the
      endpoint (path and query) and the body before `JSON.stringify`. */
  datatype Request = Request(verb: Method, endpoint: string, body: Option<Json>)

  /** `data ? JSON.stringify(data) : undefined`: a body is attached exactly
      when the data is present and truthy, and it is that data. */
  function BodyFor(data: Option<Json>): (body: Option<Json>)
    ensures body.Some? <==> data.Some? && Truthy(data.value)
    ensures body.Some? ==> body == data
  {
    if data.Some? && Truthy(data.value) then data else None
  }

  /** `get(endpoint)`: a GET to the endpoint, never with a body. */
  function Get(endpoint: string): (r: Request)
    ensures r.verb == GET && r.endpoint == endpoint && r.body.None?
  {
    Request(GET, endpoint, None)
  }

  function Post(endpoint: string, data: Option<Json>): (r: Request)
    ensures r.verb == POST && r.endpoint == endpoint
    ensures r.body.Some? <==> data.Some? && Truthy(data.value)
    ensures r.body.Some? ==> r.body == data
  {
    Request(POST, endpoint, BodyFor(data))
  }

  function Put(endpoint: string, data: Option<Json>): (r: Request)
    ensures r.verb == PUT && r.endpoint == endpoint
    ensures r.body.Some? <==> data.Some? && Truthy(data.value)
    ensures r.body.Some? ==> r.body == data
  {
    Request(PUT, endpoint, BodyFor(data))
  }

  /** `delete(endpoint)`: a DELETE to the endpoint, never with a body. */
  function Delete(endpoint: string): (r: Request)
    ensures r.verb == DELETE && r.endpoint == endpoint && r.body.None?
  {
    Request(DELETE, endpoint, None)
  }

  /** A header record: a plain object from header name to value. */
  type Headers = map<string, string>

  const ContentType := "Content-Type"
  const Authorization := "Authorization"
  const LoginPath := "/auth/login"

  /** The bearer token is sent when the stored token is truthy (present and
      non-empty) and the endpoint is not the login endpoint. */
  predicate AttachesToken(token: Option<string>, endpoint: string) {
    token.Some? && token.value != [] && !Contains(endpoint, LoginPath)
  }

  /** The headers of one call: JSON content type by default, the caller's
      headers over it, and the bearer token written last. */
  function BuildHeaders(token: Option<string>, endpoint: string, caller: Headers): (h: Headers)
    ensures AttachesToken(token, endpoint) ==> Authorization in h && h[Authorization] == "Bearer " + token.value
    ensures !AttachesToken(token, endpoint) ==>
      (Authorization in h <==> Authorization in caller) &&
      (Authorization in caller ==> h[Authorization] == caller[Authorization])
    ensures ContentType in h
    ensures h[ContentType] == if ContentType in caller then caller[ContentType] else "application/json"
    ensures forall k :: k in caller && k != Authorization ==> k in h && h[k] == caller[k]
    ensures forall k :: k in h ==> k in caller || k == ContentType || k == Authorization
  {
    var base := map[ContentType := "application/json"] + caller;
    if AttachesToken(token, endpoint) then base[Authorization := "Bearer " + token.value] else base
  }

  /** The outcome of `fetch` followed by `response.text()`: either one of them
      threw, or a status and the body text arrived. */
  datatype FetchOutcome = Threw | Received(status: int, text: string)

  /** `response.ok` */
  predicate IsOk(status: int) {
    200 <= status <= 299
  }

  function ErrorObject(code: string, message: Json): Json {
    JObj([("code", JStr(code)), ("message", message)])
  }

  /** `{ success: false, error }` */
  function Failure(error: Json): Json {
    JObj([("success", JBool(false)), ("error", error)])
  }

  /** A failure object reads back as unsuccessful, carrying its error. */
  lemma FailureReadsBack(error: Json)
    ensures Property(Failure(error), "success") == Some(JBool(false))
    ensures Property(Failure(error), "error") == Some(error)
  {
    var fields := [("success", JBool(false)), ("error", error)];
    assert fields[1].0 == "error" && fields[0].0 == "success";
    assert "error" != "success" by {
      assert "error"[0] != "success"[0];
    }
    assert fields[..1] == [("success", JBool(false))];
    assert Lookup(fields[..1], "success") == Some(JBool(false));
    assert Lookup(fields, "success") == Lookup(fields[..1], "success");
  }

  const ParseError := Failure(ErrorObject("PARSE_ERROR", JStr("Response tidak valid dari server")))
  const NetworkError := Failure(ErrorObject("NETWORK_ERROR", JStr("Koneksi ke server gagal")))
  const ServerErrorMessage := "Terjadi kesalahan pada server"

  /** The result of `ApiService.request` for one network outcome. An empty
      body reads as `{}`; an unparsable one is a parse error whatever the
      status; a non-2xx status passes the server's `error` through or builds
      a server error from its `message`; a 2xx body is returned as parsed;
      anything thrown, including reading `error` off a `null` body, becomes a
      network error. */
  function Classify(outcome: FetchOutcome, parse: string -> Option<Json>): (r: Json)
    ensures outcome.Threw? ==> r == NetworkError
    ensures outcome.Received? && outcome.text != [] && parse(outcome.text).None? ==> r == ParseError
    ensures outcome.Received? && IsOk(outcome.status) && outcome.text == [] ==> r == JObj([])
    ensures outcome.Received? && IsOk(outcome.status) && outcome.text != [] && parse(outcome.text).Some? ==>
      r == parse(outcome.text).value
    ensures outcome.Received? && !IsOk(outcome.status) ==>
      Property(r, "success") == Some(JBool(false)) &&
      Property(r, "error").Some? && Truthy(Property(r, "error").value)
    ensures outcome.Received? && !IsOk(outcome.status) && (outcome.text == [] || parse(outcome.text).Some?) ==>
      var body := if outcome.text == [] then JObj([]) else parse(outcome.text).value;
      var error := Property(body, "error");
      var message := Property(body, "message");
      r == if body.JNull? then NetworkError
           else if error.Some? && Truthy(error.value) then Failure(error.value)
           else Failure(ErrorObject("SERVER_ERROR",
                  if message.Some? && Truthy(message.value) then message.value else JStr(ServerErrorMessage)))
  {
    match outcome
    case Threw => NetworkError
    case Received(status, text) =>
      var parsed := if text == [] then Some(JObj([])) else parse(text);
      if parsed.None? then FailureReadsBack(ParseError.fields[1].1); ParseError
      else if IsOk(status) then parsed.value
      else if parsed.value.JNull? then FailureReadsBack(NetworkError.fields[1].1); NetworkError
      else
        var error := Property(parsed.value, "error");
        if error.Some? && Truthy(error.value) then FailureReadsBack(error.value); Failure(error.value)
        else
          var message := Property(parsed.value, "message");
          var text := if message.Some? && Truthy(message.value) then message.value else JStr(ServerErrorMessage);
          FailureReadsBack(ErrorObject("SERVER_ERROR", text));
          Failure(ErrorObject("SERVER_ERROR", text))
  }

  /** What one call sends and what it resolves to. `request` never rejects:
      every outcome, thrown or not, yields a result. */
  datatype Exchange = Exchange(headers: Headers, result: Json)

  /** `request(endpoint, options)`: it always resolves. A throw or a non-2xx
      status resolves to an unsuccessful result carrying a truthy error, and
      the bearer token goes out exactly as `BuildHeaders` decides. */
  function Send(token: Option<string>, request: Request, caller: Headers,
                outcome: FetchOutcome, parse: string -> Option<Json>): (x: Exchange)
    ensures outcome.Threw? || !IsOk(outcome.status) ==>
      Property(x.result, "success") == Some(JBool(false)) &&
      Property(x.result, "error").Some? && Truthy(Property(x.result, "error").value)
    ensures AttachesToken(token, request.endpoint) ==>
      Authorization in x.headers && x.headers[Authorization] == "Bearer " + token.value
    ensures Contains(request.endpoint, LoginPath) && Authorization !in caller ==> Authorization !in x.headers
    ensures ContentType in x.headers
  {
    FailureReadsBack(NetworkError.fields[1].1);
    Exchange(BuildHeaders(token, request.endpoint, caller), Classify(outcome, parse))
  }

  /** A non-2xx response whose body carries a truthy `error` passes that
      error through verbatim. */
  lemma ServerErrorPassesThrough(status: int, text: string, parse: string -> Option<Json>,
                                 fields: seq<(string, Json)>, error: Json)
    requires !IsOk(status) && text != [] && parse(text) == Some(JObj(fields))
    requires Lookup(fields, "error") == Some(error) && Truthy(error)
    ensures Classify(Received(status, text), parse) == Failure(error)
  {
  }

  /** A non-2xx response with an empty body is a server error with the fixed
      message. */
  lemma EmptyErrorBodyIsServerError(status: int, parse: string -> Option<Json>)
    requires !IsOk(status)
    ensures Classify(Received(status, []), parse) ==
      Failure(ErrorObject("SERVER_ERROR", JStr(ServerErrorMessage)))
  {
  }

  /** A non-2xx object body without a truthy `error` becomes a server error
      carrying the server's `message` when that is truthy, and the fixed
      message otherwise. */
  lemma ServerErrorUsesMessage(status: int, text: string, parse: string -> Option<Json>,
                               fields: seq<(string, Json)>)
    requires !IsOk(status) && text != [] && parse(text) == Some(JObj(fields))
    requires Lookup(fields, "error").None? || !Truthy(Lookup(fields, "error").value)
    ensures var message := Lookup(fields, "message");
      Classify(Received(status, text), parse) ==
        Failure(ErrorObject("SERVER_ERROR",
          if message.Some? && Truthy(message.value) then message.value else JStr(ServerErrorMessage)))
  {
  }

  /** A non-2xx response whose body is the JSON literal `null` makes the read
      of `result.error` throw, and the catch reports a network error. */
  lemma NullErrorBodyIsNetworkError(status: int, text: string, parse: string -> Option<Json>)
    requires !IsOk(status) && text != [] && parse(text) == Some(JNull)
    ensures Classify(Received(status, text), parse) == NetworkError
  {
  }

  /** The login endpoint never carries the bearer token, whatever is stored. */
  lemma LoginCarriesNoToken(token: Option<string>, caller: Headers)
    requires Authorization !in caller
    ensures Authorization !in BuildHeaders(token, LoginPath, caller)
  {
    assert OccursAt(LoginPath, LoginPath, 0);
  }
}

=== FILE: auth_service.dfy ===
/** `AuthService` (src/services/auth.ts): the session kept in the device's
    key-value storage. The storage is a map; a storage call that throws is
    named by its position among the calls an operation makes (`fault`);
    `JSON.stringify`/`JSON.parse` of the user record are parameters. */
module AuthService {
  import opened Wrappers

  const TokenKey := "user_token"
  const UserKey := "user_data"
  const MockToken := "mock_token_12345"
  const LoginFailed := "Login gagal"

  type Storage = map<string, string>

  datatype Credentials = Credentials(username: string, password: string)

  datatype UserData = UserData(id: string, username: string, name: string, email: string, role: string)

  /** `{ success, message?, data? }` */
  datatype LoginResult = LoginResult(success: bool, message: Option<string>, data: Option<UserData>)

  /** The storage after an operation, and what the operation returned. */
  datatype Stored<T> = Stored(storage: Storage, value: T)

  /** The position (from 0) of the first storage call that throws, if any. */
  type Fault = Option<nat>

  /** None of the first `calls` storage calls throws. */
  predicate Survives(fault: Fault, calls: nat) {
    fault.None? || fault.value >= calls
  }

  /** The user `login` records for any credentials. */
  function MockUser(c: Credentials): UserData {
    UserData("1", c.username, "User Demo", "demo@menara-agung.com", "dealer")
  }

  /** `login(credentials)`: writes the token, then the user record; accepts
      any credentials. If a write throws, the writes before it stay and the
      result is the fixed failure message. */
  function Login(c: Credentials, s: Storage, fault: Fault, stringify: UserData -> string): (r: Stored<LoginResult>)
    ensures r.value.success <==> Survives(fault, 2)
    ensures r.value.success ==>
      && r.value.data.Some? && r.value.data.value.username == c.username && r.value.data.value.role == "dealer"
      && r.value.message.None?
      && TokenKey in r.storage && r.storage[TokenKey] == MockToken
      && UserKey in r.storage && r.storage[UserKey] == stringify(r.value.data.value)
    ensures !r.value.success ==> r.value == LoginResult(false, Some(LoginFailed), None)
    ensures fault == Some(0) ==> r.storage == s
    ensures fault == Some(1) ==> r.storage == s[TokenKey := MockToken]
    ensures forall k :: k in s && k != TokenKey && k != UserKey ==> k in r.storage && r.storage[k] == s[k]
    ensures forall k :: k in r.storage ==> k in s || k == TokenKey || k == UserKey
  {
    var user := MockUser(c);
    if fault == Some(0) then Stored(s, LoginResult(false, Some(LoginFailed), None))
    else
      var afterToken := s[TokenKey := MockToken];
      if fault == Some(1) then Stored(afterToken, LoginResult(false, Some(LoginFailed), None))
      else Stored(afterToken[UserKey := stringify(user)], LoginResult(true, None, Some(user)))
  }

  /** `logout()`: removes the token, then the user record; a throwing call
      is swallowed and stops the removals after it. */
  function Logout(s: Storage, fault: Fault): (r: Storage)
    ensures Survives(fault, 2) ==> TokenKey !in r && UserKey !in r
    ensures fault == Some(0) ==> r == s
    ensures fault == Some(1) ==> TokenKey !in r && r == s - {TokenKey}
    ensures forall k :: k in s && k != TokenKey && k != UserKey ==> k in r && r[k] == s[k]
    ensures forall k :: k in r ==> k in s
  {
    if fault == Some(0) then s
    else
      var afterToken := s - {TokenKey};
      if fault == Some(1) then afterToken else afterToken - {UserKey}
  }

  /** `isLoggedIn()`: whether a token is stored; `false` when reading throws. */
  function IsLoggedIn(s: Storage, readOk: bool): (b: bool)
    ensures b <==> readOk && TokenKey in s
  {
    readOk && TokenKey in s
  }

  /** `getToken()`: the stored token; `null` when absent or when reading throws. */
  function GetToken(s: Storage, readOk: bool): (t: Option<string>)
    ensures t.Some? <==> readOk && TokenKey in s
    ensures t.Some? ==> t.value == s[TokenKey]
  {
    if readOk && TokenKey in s then Some(s[TokenKey]) else None
  }

  /** `getUserData()`: the parsed user record; `null` when absent, empty,
      unparsable, or when reading throws. */
  function GetUserData(s: Storage, readOk: bool, parse: string -> Option<UserData>): (u: Option<UserData>)
    ensures u.Some? ==> readOk && UserKey in s && s[UserKey] != [] && parse(s[UserKey]) == u
    ensures readOk && UserKey in s && s[UserKey] != [] ==> u == parse(s[UserKey])
  {
    if readOk && UserKey in s && s[UserKey] != [] then parse(s[UserKey]) else None
  }

  /** After a logout whose removals both succeed, every reader reports no
      session, whatever the storage held before. */
  lemma LogoutEndsSession(s: Storage, fault: Fault, readOk: bool, parse: string -> Option<UserData>)
    requires Survives(fault, 2)
    ensures GetToken(Logout(s, fault), readOk).None?
    ensures !IsLoggedIn(Logout(s, fault), readOk)
    ensures GetUserData(Logout(s, fault), readOk, parse).None?
  {
  }

  /** After a login whose writes succeed, the readers return the session it
      wrote, given that parsing reads back what stringifying wrote. */
  lemma LoginThenRead(c: Credentials, s: Storage, fault: Fault, stringify: UserData -> string,
                      parse: string -> Option<UserData>)
    requires Survives(fault, 2)
    requires stringify(MockUser(c)) != [] && parse(stringify(MockUser(c))) == Some(MockUser(c))
    ensures var after := Login(c, s, fault, stringify).storage;
      && GetToken(after, true) == Some(MockToken)
      && IsLoggedIn(after, true)
      && GetUserData(after, true, parse) == Some(MockUser(c))
  {
  }

  /** A login whose second write throws reports failure yet leaves a token
      behind, so `isLoggedIn` answers true afterwards. */
  lemma FailedLoginCanLeaveToken(c: Credentials, s: Storage, stringify: UserData -> string)
    ensures !Login(c, s, Some(1), stringify).value.success
    ensures IsLoggedIn(Login(c, s, Some(1), stringify).storage, true)
  {
  }
}

=== FILE: campaign_detail.dfy ===
/** The campaign detail page (src/Screens/Campaign/CampaignDetailScreen.tsx):
    the `formatDate` string builder, the period line, and which page and
    sections are drawn for a loading flag and a fetched campaign. */
module CampaignDetail {
  import opened Wrappers
  import opened Text

  const Months: seq<string> := ["Jan", "Feb", "Mar", "Apr", "May", "Jun", "Jul", "Aug", "Sep", "Oct", "Nov", "Dec"]

  /** Template text of `parseInt(day)`: the number, which reads back as
      itself, or "NaN" when the segment is missing (`undefined`), empty, or
      one `parseInt` finds no number in. */
  function DayText(day: Option<string>): (r: string)
    ensures day.Some? && AllDigits(day.value) && day.value != [] ==> r == ToDecimal(DigitsValue(day.value))
    ensures day.None? || day == Some([]) ==> r == "NaN"
    ensures day.Some? && ParseInt(day.value).None? ==> r == "NaN"
    ensures day.Some? && ParseInt(day.value).Some? ==> ParseInt(r) == ParseInt(day.value)
  {
    ParseIntOfDigits(day.GetOr([]));
    var n := if day.None? then None else ParseInt(day.value);
    if n.None? then "NaN"
    else
      ParseIntOfIntToString(n.value);
      IntToString(n.value)
  }

  /** Template text of `months[parseInt(month) - 1]`: the month's short name
      for 1 to 12, otherwise "undefined" (an index outside the table, or
      `NaN` when the segment is missing or `parseInt` finds no number). */
  function MonthText(month: Option<string>): (r: string)
    ensures month.None? ==> r == "undefined"
    ensures month.Some? && ParseInt(month.value).None? ==> r == "undefined"
    ensures month == Some([]) ==> r == "undefined"
    ensures month.Some? && AllDigits(month.value) && month.value != [] ==>
      var m := DigitsValue(month.value);
      r == if 1 <= m <= 12 then Months[m - 1] else "undefined"
  {
    ParseIntOfDigits(month.GetOr([]));
    var n := if month.None? then None else ParseInt(month.value);
    if n.Some? && 1 <= n.value <= 12 then Months[n.value - 1] else "undefined"
  }

  function Segment(parts: seq<string>, i: nat): (r: Option<string>)
    ensures r.Some? <==> i < |parts|
    ensures r.Some? ==> r.value == parts[i]
  {
    if i < |parts| then Some(parts[i]) else None
  }

  /** `formatDate`: split on '-', read the first three pieces as year, month
      and day, and write "day month year". */
  function FormatDate(date: string): (r: string)
    ensures StripSuffix(r, " " + Split(date, '-')[0]).Some?
  {
    var parts := Split(date, '-');
    var head := DayText(Segment(parts, 2)) + " " + MonthText(Segment(parts, 1));
    assert head + " " + parts[0] == head + (" " + parts[0]);
    StripSuffixOfConcat(head, " " + parts[0]);
    DayText(Segment(parts, 2)) + " " + MonthText(Segment(parts, 1)) + " " + parts[0]
  }

  /** "Y-M-D" with dash-free segments splits into exactly those three. */
  lemma SplitDate(y: string, m: string, d: string)
    requires '-' !in y && '-' !in m && '-' !in d
    ensures Split(y + "-" + m + "-" + d, '-') == [y, m, d]
  {
    var parts := [y, m, d];
    assert parts[1..][1..] == [d];
    assert Join(parts[1..], '-') == m + "-" + d;
    assert Join(parts, '-') == y + "-" + (m + "-" + d);
    assert y + "-" + (m + "-" + d) == y + "-" + m + "-" + d;
    SplitJoin(parts, '-');
  }

  lemma DigitsHaveNoDash(s: string)
    requires AllDigits(s)
    ensures '-' !in s
  {
  }

  /** For "Y-M-D" with digit segments and M from 1 to 12, the result is the
      day without its leading zeros ("0" if it was all zeros), the month's
      name and the year as written. */
  lemma FormatWellFormedDate(y: string, m: string, d: string)
    requires AllDigits(y) && AllDigits(m) && AllDigits(d) && m != [] && d != []
    requires 1 <= DigitsValue(m) <= 12
    ensures FormatDate(y + "-" + m + "-" + d) ==
      (if StripLeadingZeros(d) == [] then "0" else StripLeadingZeros(d)) + " " + Months[DigitsValue(m) - 1] + " " + y
  {
    DigitsHaveNoDash(y);
    DigitsHaveNoDash(m);
    DigitsHaveNoDash(d);
    SplitDate(y, m, d);
    var parts := Split(y + "-" + m + "-" + d, '-');
    assert Segment(parts, 2) == Some(d) && Segment(parts, 1) == Some(m) && parts[0] == y;
    ToDecimalDropsLeadingZeros(d);
  }

  /** The month segment is read as a number, so "03" and "3" both name March,
      and the month table runs from "Jan" for 1 to "Dec" for 12. */
  lemma MonthIgnoresLeadingZeros(m: nat)
    requires 1 <= m <= 12
    ensures MonthText(Some(ToDecimal(m))) == Months[m - 1]
    ensures MonthText(Some("0" + ToDecimal(m))) == Months[m - 1]
    ensures Months[0] == "Jan" && Months[11] == "Dec"
  {
    DigitsValueLeadingZero(ToDecimal(m));
  }

  /** "2024-03-05" is written "5 Mar 2024". */
  lemma FormatExample(date: string)
    requires date == "2024-03-05"
    ensures FormatDate(date) == "5 Mar 2024"
  {
    ExampleSegments();
    ExampleDate(date);
    FormatWellFormedDate("2024", "03", "05");
    MarchIsThird();
  }

  lemma ExampleDate(date: string)
    requires date == "2024-03-05"
    ensures date == "2024" + "-" + "03" + "-" + "05"
  {
  }

  lemma MarchIsThird()
    ensures "5" + " " + Months[2] + " " + "2024" == "5 Mar 2024"
  {
  }

  lemma ExampleSegments()
    ensures AllDigits("2024") && AllDigits("03") && AllDigits("05")
    ensures DigitsValue("03") == 3
    ensures StripLeadingZeros("05") == "5"
  {
    assert "03"[..1] == "0";
    assert "05"[1..] == "5";
  }

  /** A date without dashes keeps its text as the year; the missing day and
      month print as "NaN" and "undefined". */
  lemma FormatWithoutDashes(date: string)
    requires '-' !in date
    ensures FormatDate(date) == "NaN undefined " + date
  {
    SplitJoin([date], '-');
    assert Join([date], '-') == date;
    var parts := Split(date, '-');
    assert parts == [date];
    assert Segment(parts, 2).None? && Segment(parts, 1).None?;
    assert DayText(None) == "NaN" && MonthText(None) == "undefined";
  }

  /** The period line: both dates joined by " - ". */
  function Period(startDate: string, endDate: string): (r: string)
    ensures StripPrefix(r, FormatDate(startDate)) == Some(" - " + FormatDate(endDate))
  {
    StripPrefixOfConcat(FormatDate(startDate), " - " + FormatDate(endDate));
    assert FormatDate(startDate) + " - " + FormatDate(endDate) == FormatDate(startDate) + (" - " + FormatDate(endDate));
    FormatDate(startDate) + " - " + FormatDate(endDate)
  }

  /** The campaign fields the page reads. The optional sections may be
      missing in what the server sends. */
  datatype Campaign = Campaign(
    title: string,
    image: string,
    startDate: string,
    endDate: string,
    fullDescription: Option<string>,
    partsIncluded: Option<seq<string>>,
    termsAndConditions: Option<string>,
    rewards: Option<seq<string>>)

  /** The page drawn. */
  datatype Page =
    | LoadingPage
    | NotFound
    | Detail(title: string, image: string, period: string,
             description: Option<string>, parts: Option<seq<string>>,
             terms: Option<string>, rewards: Option<seq<string>>)

  /** `s && <section>`: shown when the text is present and non-empty. */
  function TextSection(s: Option<string>): (r: Option<string>)
    ensures r.Some? <==> s.Some? && s.value != []
    ensures r.Some? ==> r == s
  {
    if s.Some? && s.value != [] then s else None
  }

  /** `list && list.length > 0 && <section>`: shown when the list is present
      and has an entry. */
  function ListSection(l: Option<seq<string>>): (r: Option<seq<string>>)
    ensures r.Some? <==> l.Some? && |l.value| > 0
    ensures r.Some? ==> r == l
  {
    if l.Some? && |l.value| > 0 then l else None
  }

  /** Loading wins over everything; without a campaign the page says it
      was not found; otherwise the detail with its period and the sections
      that have content. */
  function Render(loading: bool, campaign: Option<Campaign>): (p: Page)
    ensures p.LoadingPage? <==> loading
    ensures p.NotFound? <==> !loading && campaign.None?
    ensures p.Detail? <==> !loading && campaign.Some?
    ensures p.Detail? ==>
      var c := campaign.value;
      && p.title == c.title
      && p.image == c.image
      && p.period == Period(c.startDate, c.endDate)
      && (p.description.Some? <==> c.fullDescription.Some? && c.fullDescription.value != [])
      && (p.description.Some? ==> p.description == c.fullDescription)
      && (p.parts.Some? <==> c.partsIncluded.Some? && |c.partsIncluded.value| > 0)
      && (p.parts.Some? ==> p.parts == c.partsIncluded)
      && (p.terms.Some? <==> c.termsAndConditions.Some? && c.termsAndConditions.value != [])
      && (p.terms.Some? ==> p.terms == c.termsAndConditions)
      && (p.rewards.Some? <==> c.rewards.Some? && |c.rewards.value| > 0)
      && (p.rewards.Some? ==> p.rewards == c.rewards)
  {
    if loading then LoadingPage
    else if campaign.None? then NotFound
    else
      var c := campaign.value;
      Detail(c.title, c.image, Period(c.startDate, c.endDate),
             TextSection(c.fullDescription), ListSection(c.partsIncluded),
             TextSection(c.termsAndConditions), ListSection(c.rewards))
  }
}

=== FILE: campaign_slider.dfy ===
/** The home screen's campaign carousel (src/components/home/CampaignSlider.tsx):
    the auto-advance timer, its index arithmetic and scroll target, and the
    rendering rules for the cards and the pagination dots. Timer firings
    are discrete events; the card width is an input. */
module CampaignSlider {
  import opened Wrappers

  /** JavaScript's `a % n` for n > 0: the remainder takes the sign of `a`. */
  function JsRem(a: int, n: int): (r: int)
    requires n > 0
    ensures -n < r < n
    ensures a >= 0 ==> 0 <= r
    ensures a <= 0 ==> r <= 0
    ensures 0 <= a < n ==> r == a
    ensures a == n ==> r == 0
    ensures (a - r) % n == 0
  {
    SmallMod(a, n);
    JsRemDivides(a, n);
    if a >= 0 then a % n else -((-a) % n)
  }

  /** The truncated remainder differs from the dividend by a multiple of `n`. */
  lemma JsRemDivides(a: int, n: int)
    requires n > 0
    ensures a >= 0 ==> (a - a % n) % n == 0
    ensures a < 0 ==> (a + (-a) % n) % n == 0
  {
    if a >= 0 {
      DivModUnique(a - a % n, n, a / n, 0);
    } else {
      var q := (-a) / n;
      assert -a == q * n + (-a) % n;
      DivModUnique(a + (-a) % n, n, -q, 0);
    }
  }

  lemma SmallMod(a: int, n: int)
    requires n > 0
    ensures 0 <= a < n ==> a % n == a
    ensures n % n == 0
  {
    if 0 <= a < n {
      DivModUnique(a, n, 0, a);
    }
    DivModUnique(n, n, 1, 0);
  }

  lemma MulAtLeast(d: int, n: int)
    requires d >= 1 && n > 0
    ensures d * n >= n
  {
  }

  lemma Distrib(a: int, b: int, n: int)
    ensures a * n - b * n == (a - b) * n
  {
  }

  /** Euclidean division has one quotient and one remainder. */
  lemma DivModUnique(a: int, n: int, q: int, r: int)
    requires n > 0 && a == q * n + r && 0 <= r < n
    ensures a % n == r
  {
    var q2, r2 := a / n, a % n;
    assert a == q2 * n + r2 && 0 <= r2 < n;
    Distrib(q, q2, n);
    Distrib(q2, q, n);
    if q > q2 {
      MulAtLeast(q - q2, n);
    } else if q < q2 {
      MulAtLeast(q2 - q, n);
    }
  }

  lemma ModAddN(x: int, n: int)
    requires n > 0
    ensures (x + n) % n == x % n
  {
    var q, r := x / n, x % n;
    assert x == q * n + r && 0 <= r < n;
    Distrib(q + 1, 1, n);
    DivModUnique(x + n, n, q + 1, r);
  }

  /** The interval is set up only with auto-slide on and at least two campaigns. */
  predicate TimerRuns(autoSlide: bool, count: int) {
    autoSlide && count > 1
  }

  /** The carousel: its current index, the props the timer depends on, and
      where the view was last asked to scroll. */
  datatype Slider = Slider(index: int, autoSlide: bool, count: nat, cardWidth: int, scrollX: int)

  function Initial(autoSlide: bool, count: nat, cardWidth: int): (s: Slider)
    ensures s.index == 0 && s.autoSlide == autoSlide && s.count == count
    ensures s.cardWidth == cardWidth && s.scrollX == 0
  {
    Slider(0, autoSlide, count, cardWidth, 0)
  }

  /** One firing of the interval: the next index `(prev + 1) % count`, and a
      scroll to `next × CARD_WIDTH`. Without a running timer nothing happens. */
  function Fire(s: Slider): (r: Slider)
    ensures !TimerRuns(s.autoSlide, s.count) ==> r == s
    ensures TimerRuns(s.autoSlide, s.count) ==>
      && r.index < s.count
      && r.scrollX == r.index * s.cardWidth
      && (s.index >= -1 ==> 0 <= r.index)
      && (s.index + 1 - r.index) % s.count == 0
      && (0 <= s.index < s.count ==> r.index == if s.index == s.count - 1 then 0 else s.index + 1)
      && r.(index := s.index, scrollX := s.scrollX) == s
  {
    if TimerRuns(s.autoSlide, s.count) then
      var next := JsRem(s.index + 1, s.count);
      s.(index := next, scrollX := next * s.cardWidth)
    else s
  }

  /** The end of a manual swipe: the index becomes the rounded offset, which
      is an input here. */
  function ScrollEnd(s: Slider, rounded: int): (r: Slider)
    ensures r.index == rounded && r.(index := s.index) == s
  {
    s.(index := rounded)
  }

  /** `k` firings in a row. */
  function FireTimes(s: Slider, k: nat): Slider
    decreases k
  {
    if k == 0 then s else FireTimes(Fire(s), k - 1)
  }

  /** Firing never changes the props, so the timer keeps running. */
  lemma {:induction false} FireTimesKeepsProps(s: Slider, k: nat)
    ensures var r := FireTimes(s, k);
      r.autoSlide == s.autoSlide && r.count == s.count && r.cardWidth == s.cardWidth
    decreases k
  {
    if k > 0 {
      FireTimesKeepsProps(Fire(s), k - 1);
    }
  }

  /** From index 0 with the timer running, `k` firings reach `k mod count`:
      the indices 0, 1, …, count − 1 in order, then 0 again. */
  lemma {:induction false} FiringsCycle(s: Slider, k: nat)
    requires TimerRuns(s.autoSlide, s.count) && 0 <= s.index < s.count
    ensures FireTimes(s, k).index == (s.index + k) % s.count
    decreases k
  {
    if k > 0 {
      var t := Fire(s);
      if s.index + 1 < s.count {
        DivModUnique(s.index + 1, s.count, 0, s.index + 1);
      } else {
        DivModUnique(s.index + 1, s.count, 1, 0);
      }
      assert t.index == (s.index + 1) % s.count;
      FiringsCycle(t, k - 1);
      ModStep(s.index, k, s.count);
    }
  }

  lemma ModStep(i: int, k: nat, n: int)
    requires n > 0 && 0 <= i < n && k > 0
    ensures ((i + 1) % n + (k - 1)) % n == (i + k) % n
  {
    if i + 1 == n {
      DivModUnique(i + 1, n, 1, 0);
      ModAddN(k - 1, n);
      assert i + k == (k - 1) + n;
    } else {
      DivModUnique(i + 1, n, 0, i + 1);
    }
  }

  /** `count` firings from the start bring the carousel back to the first card. */
  lemma FullCycleReturns(autoSlide: bool, count: nat, cardWidth: int)
    requires TimerRuns(autoSlide, count)
    ensures FireTimes(Initial(autoSlide, count, cardWidth), count).index == 0
    ensures forall k: nat :: k < count ==> FireTimes(Initial(autoSlide, count, cardWidth), k).index == k
  {
    FiringsCycle(Initial(autoSlide, count, cardWidth), count);
    DivModUnique(count, count, 1, 0);
    forall k: nat | k < count
      ensures FireTimes(Initial(autoSlide, count, cardWidth), k).index == k
    {
      FiringsCycle(Initial(autoSlide, count, cardWidth), k);
      DivModUnique(k, count, 0, k);
    }
  }

  /** What is drawn: nothing for an empty list; otherwise every card, and
      the dots (each active or not) only for more than one card. */
  datatype View<T> = Nothing | Carousel(cards: seq<T>, dots: Option<seq<bool>>)

  function Render<T>(campaigns: seq<T>, index: int): (v: View<T>)
    ensures v.Nothing? <==> campaigns == []
    ensures v.Carousel? ==> v.cards == campaigns
    ensures v.Carousel? ==> (v.dots.Some? <==> |campaigns| > 1)
    ensures v.Carousel? && v.dots.Some? ==>
      |v.dots.value| == |campaigns| &&
      forall i :: 0 <= i < |campaigns| ==> (v.dots.value[i] <==> i == index)
  {
    if campaigns == [] then Nothing
    else if |campaigns| > 1 then Carousel(campaigns, Some(seq(|campaigns|, i => i == index)))
    else Carousel(campaigns, None)
  }

  /** With the index on a card, exactly one dot is active. */
  lemma OneActiveDot<T>(campaigns: seq<T>, index: int)
    requires |campaigns| > 1 && 0 <= index < |campaigns|
    ensures var dots := Render(campaigns, index).dots.value;
      dots[index] && forall i :: 0 <= i < |dots| && dots[i] ==> i == index
  {
  }

  /** After a timer firing the active dot is the one the carousel scrolled to. */
  lemma FiringMovesActiveDot<T>(campaigns: seq<T>, s: Slider)
    requires s.count == |campaigns| && TimerRuns(s.autoSlide, s.count) && 0 <= s.index < s.count
    ensures var r := Fire(s);
      var dots := Render(campaigns, r.index).dots.value;
      dots[r.index] && r.scrollX == r.index * s.cardWidth
  {
  }
}

=== FILE: cart_controller.dfy ===
/** The cart screen's controller (`useCartScreen`,
    src/Screens/Cart/hooks/useCartScreen.ts): loading the cart, the minus,
    plus and typed-quantity handlers, delete, and the total. Each handler is
    one atomic step that takes the server's answer as an input (`ok` is
    `result.success`) and returns the new items with the request it sent. */
module CartController {
  import opened Wrappers
  import opened Text
  import CartService

  datatype CartItem = CartItem(
    id: string,
    partId: string,
    partNumber: string,
    name: string,
    image: string,
    price: int,
    quantity: int,
    subtotal: int,
    isReady: bool)

  /** The hook's state: `cartItems` and `loading`. */
  datatype Cart = Cart(items: seq<CartItem>, loading: bool)

  /** The items after a handler, and the cart service call it made (`None`:
      no call); `CartService.ToRequest` gives the request each call sends. */
  datatype Step = Step(items: seq<CartItem>, request: Option<CartService.CartOp>)

  function UpdateRequest(id: string, quantity: int): CartService.CartOp {
    CartService.UpdateCartItem(id, quantity)
  }

  function RemoveRequest(id: string): CartService.CartOp {
    CartService.RemoveFromCart(id)
  }

  /** `cartItems.find(i => i.id === id)`: the first item with this id. */
  function Find(items: seq<CartItem>, id: string): (r: Option<CartItem>)
    ensures r.Some? <==> exists k :: 0 <= k < |items| && items[k].id == id
    ensures r.Some? ==> r.value.id == id && r.value in items
  {
    if items == [] then None
    else if items[0].id == id then Some(items[0])
    else
      var r := Find(items[1..], id);
      assert forall k :: 0 < k < |items| ==> items[k] == items[1..][k - 1];
      r
  }

  /** `find` returns the first holder: the item at some position holding
      the id, with no holder before it. */
  lemma {:induction false} FindIsFirst(items: seq<CartItem>, id: string)
    ensures Find(items, id).Some? ==>
      exists k :: 0 <= k < |items| && items[k] == Find(items, id).value && NoHolderBefore(items, id, k)
  {
    if items != [] {
      if items[0].id == id {
        assert NoHolderBefore(items, id, 0);
      } else {
        FindIsFirst(items[1..], id);
        FirstHolderShift(items, id, Find(items[1..], id));
      }
    }
  }

  /** No item before position `k` holds the id. */
  predicate NoHolderBefore(items: seq<CartItem>, id: string, k: nat)
    requires k <= |items|
  {
    forall j :: 0 <= j < k ==> items[j].id != id
  }

  /** A first holder in the tail is the first holder of the whole list when
      the head does not hold the id. */
  lemma FirstHolderShift(items: seq<CartItem>, id: string, r: Option<CartItem>)
    requires |items| >= 1 && items[0].id != id
    requires r.Some? ==> exists k :: 0 <= k < |items[1..]| && items[1..][k] == r.value && NoHolderBefore(items[1..], id, k)
    ensures r.Some? ==> exists k :: 0 <= k < |items| && items[k] == r.value && NoHolderBefore(items, id, k)
  {
    if r.Some? {
      var k :| 0 <= k < |items[1..]| && items[1..][k] == r.value && NoHolderBefore(items[1..], id, k);
      assert items[k + 1] == r.value;
      forall j | 0 <= j < k + 1
        ensures items[j].id != id
      {
        if j > 0 {
          assert items[j] == items[1..][j - 1];
        }
      }
      assert NoHolderBefore(items, id, k + 1);
    }
  }

  /** The item with `quantity` replaced and the subtotal recomputed. */
  function WithQuantity(i: CartItem, quantity: int): CartItem {
    i.(quantity := quantity, subtotal := i.price * quantity)
  }

  /** Every item with id `id` gets quantity `q` and subtotal price × `q`;
      every other item, and the order, stay as they were. */
  predicate UpdatedOnly(before: seq<CartItem>, after: seq<CartItem>, id: string, q: int) {
    && |after| == |before|
    && forall k :: 0 <= k < |before| ==>
         after[k] == (if before[k].id == id then WithQuantity(before[k], q) else before[k])
  }

  /** `cartItems.map(i => i.id === id ? { ...i, quantity, subtotal } : i)` */
  function SetQuantity(items: seq<CartItem>, id: string, q: int): (r: seq<CartItem>)
    ensures UpdatedOnly(items, r, id, q)
  {
    if items == [] then []
    else
      var head := if items[0].id == id then WithQuantity(items[0], q) else items[0];
      var rest := SetQuantity(items[1..], id, q);
      assert forall k :: 0 < k < |items| ==> ([head] + rest)[k] == rest[k - 1] && items[1..][k - 1] == items[k];
      [head] + rest
  }

  /** `cartItems.filter(item => item.id !== id)` */
  function Remove(items: seq<CartItem>, id: string): (r: seq<CartItem>)
    ensures forall x :: multiset(r)[x] == if x.id == id then 0 else multiset(items)[x]
  {
    if items == [] then []
    else
      var rest := Remove(items[1..], id);
      assert items == [items[0]] + items[1..];
      if items[0].id == id then rest else [items[0]] + rest
  }

  /** Removal keeps the order of what stays: it distributes over concatenation. */
  lemma {:induction false} RemoveAppend(a: seq<CartItem>, b: seq<CartItem>, id: string)
    ensures Remove(a + b, id) == Remove(a, id) + Remove(b, id)
  {
    if a != [] {
      assert (a + b)[0] == a[0];
      assert (a + b)[1..] == a[1..] + b;
      RemoveAppend(a[1..], b, id);
    } else {
      assert a + b == b;
    }
  }

  /** `calculateTotal()`: the sum of the stored subtotals, 0 for an empty cart. */
  function Total(items: seq<CartItem>): (t: int)
    ensures items == [] ==> t == 0
    ensures |items| == 1 ==> t == items[0].subtotal
  {
    if items == [] then 0 else items[0].subtotal + Total(items[1..])
  }

  /** With no negative subtotal, the total is not negative. */
  lemma {:induction false} TotalNonNegative(items: seq<CartItem>)
    requires forall k :: 0 <= k < |items| ==> items[k].subtotal >= 0
    ensures Total(items) >= 0
  {
    if items != [] {
      assert forall k :: 0 <= k < |items| - 1 ==> items[1..][k] == items[k + 1];
      TotalNonNegative(items[1..]);
    }
  }

  /** The cart invariant: every quantity is at least 1 and every subtotal is
      price × quantity. */
  predicate Valid(items: seq<CartItem>) {
    forall k :: 0 <= k < |items| ==> items[k].quantity >= 1 && items[k].subtotal == items[k].price * items[k].quantity
  }

  /** `handleMinus(id)`: nothing at all, not even a request, unless the item
      exists with quantity above 1; then a request for quantity − 1, applied
      locally only when the server reports success. */
  function Minus(items: seq<CartItem>, id: string, ok: bool): (r: Step)
    ensures Find(items, id).None? || Find(items, id).value.quantity <= 1 ==> r == Step(items, None)
    ensures Find(items, id).Some? && Find(items, id).value.quantity > 1 ==>
      var q := Find(items, id).value.quantity - 1;
      && r.request == Some(UpdateRequest(id, q))
      && (ok ==> UpdatedOnly(items, r.items, id, q))
      && (!ok ==> r.items == items)
  {
    var item := Find(items, id);
    if item.Some? && item.value.quantity > 1 then
      var q := item.value.quantity - 1;
      Step(if ok then SetQuantity(items, id, q) else items, Some(UpdateRequest(id, q)))
    else Step(items, None)
  }

  /** `handlePlus(id)`: no request for an unknown id; otherwise a request for
      quantity + 1, applied locally only on success. */
  function Plus(items: seq<CartItem>, id: string, ok: bool): (r: Step)
    ensures Find(items, id).None? ==> r == Step(items, None)
    ensures Find(items, id).Some? ==>
      var q := Find(items, id).value.quantity + 1;
      && r.request == Some(UpdateRequest(id, q))
      && (ok ==> UpdatedOnly(items, r.items, id, q))
      && (!ok ==> r.items == items)
  {
    var item := Find(items, id);
    if item.Some? then
      var q := item.value.quantity + 1;
      Step(if ok then SetQuantity(items, id, q) else items, Some(UpdateRequest(id, q)))
    else Step(items, None)
  }

  /** `parseInt(text.replace(/[^0-9]/g, '')) || 1`: the value of the typed
      digits, or 1 when there are none or they read as zero. */
  function TypedQuantity(text: string): (q: int)
    ensures q >= 1
    ensures var d := KeepDigits(text);
      q == if d == [] || DigitsValue(d) == 0 then 1 else DigitsValue(d)
  {
    var digits := KeepDigits(text);
    ParseIntOfDigits(digits);
    NumberOr(ParseInt(digits), 1)
  }

  /** `handleQuantityChange(id, text)`: the request is sent for any id; the
      local change happens only on success and only for a known id. */
  function QuantityChange(items: seq<CartItem>, id: string, text: string, ok: bool): (r: Step)
    ensures r.request == Some(UpdateRequest(id, TypedQuantity(text)))
    ensures ok && Find(items, id).Some? ==> UpdatedOnly(items, r.items, id, TypedQuantity(text))
    ensures !ok || Find(items, id).None? ==> r.items == items
  {
    var q := TypedQuantity(text);
    var changed := ok && Find(items, id).Some?;
    Step(if changed then SetQuantity(items, id, q) else items, Some(UpdateRequest(id, q)))
  }

  /** `handleDelete(id)`: always a DELETE request; on success exactly the
      items with this id are gone, the rest keep their order. */
  function Delete(items: seq<CartItem>, id: string, ok: bool): (r: Step)
    ensures r.request == Some(RemoveRequest(id))
    ensures ok ==> forall x :: multiset(r.items)[x] == if x.id == id then 0 else multiset(items)[x]
    ensures ok ==> r.items == Remove(items, id)
    ensures !ok ==> r.items == items
  {
    Step(if ok then Remove(items, id) else items, Some(RemoveRequest(id)))
  }

  /** What `cartService.getCart()` resolved to, or that it rejected. */
  datatype CartPayload = CartPayload(items: Option<seq<CartItem>>)
  datatype LoadOutcome = Rejected | Resolved(success: bool, data: Option<CartPayload>)

  /** `setLoading(true)` at the start of `loadCart`. */
  function LoadStart(c: Cart): (r: Cart)
    ensures r.loading && r.items == c.items
  {
    c.(loading := true)
  }

  /** The end of `loadCart`: the server's items on success (`[]` when the
      payload has none), `[]` on a failure or a rejection; never loading. */
  function LoadFinish(c: Cart, outcome: LoadOutcome): (r: Cart)
    ensures !r.loading
    ensures outcome.Resolved? && outcome.success && outcome.data.Some? ==>
      r.items == outcome.data.value.items.GetOr([])
    ensures !(outcome.Resolved? && outcome.success && outcome.data.Some?) ==> r.items == []
  {
    match outcome
    case Resolved(true, Some(payload)) => Cart(payload.items.GetOr([]), false)
    case _ => Cart([], false)
  }

  /** A load does not depend on what was shown before: two carts loaded
      with the same outcome end equal, and a failed load leaves an empty
      cart whose total is 0. */
  lemma LoadForgetsPrevious(c: Cart, d: Cart, outcome: LoadOutcome)
    ensures LoadFinish(LoadStart(c), outcome) == LoadFinish(LoadStart(d), outcome)
    ensures !(outcome.Resolved? && outcome.success) ==> Total(LoadFinish(LoadStart(c), outcome).items) == 0
  {
  }

  /** The total of two runs of items is the sum of their totals. */
  lemma {:induction false} TotalAppend(a: seq<CartItem>, b: seq<CartItem>)
    ensures Total(a + b) == Total(a) + Total(b)
  {
    if a == [] {
      assert a + b == b;
    } else {
      assert (a + b)[1..] == a[1..] + b;
      TotalAppend(a[1..], b);
    }
  }

  lemma UpdateKeepsValid(before: seq<CartItem>, after: seq<CartItem>, id: string, q: int)
    requires Valid(before) && q >= 1 && UpdatedOnly(before, after, id, q)
    ensures Valid(after)
  {
  }

  /** Minus keeps the cart invariant whatever the server answers: the
      quantity it sets is at least 1. */
  lemma MinusKeepsValid(items: seq<CartItem>, id: string, ok: bool)
    requires Valid(items)
    ensures Valid(Minus(items, id, ok).items)
  {
    var item := Find(items, id);
    if ok && item.Some? && item.value.quantity > 1 {
      UpdateKeepsValid(items, Minus(items, id, ok).items, id, item.value.quantity - 1);
    }
  }

  /** Plus keeps the cart invariant whatever the server answers. */
  lemma PlusKeepsValid(items: seq<CartItem>, id: string, ok: bool)
    requires Valid(items)
    ensures Valid(Plus(items, id, ok).items)
  {
    if ok && Find(items, id).Some? {
      FoundIsPositive(items, id);
      var q := Find(items, id).value.quantity + 1;
      UpdateKeepsValid(items, Plus(items, id, ok).items, id, q);
    }
  }

  /** In a valid cart the item `find` returns has a quantity of at least 1. */
  lemma FoundIsPositive(items: seq<CartItem>, id: string)
    requires Valid(items) && Find(items, id).Some?
    ensures Find(items, id).value.quantity >= 1
  {
    var item := Find(items, id).value;
    assert item in items;
    var k :| 0 <= k < |items| && items[k] == item;
  }

  /** A typed quantity keeps the cart invariant: whatever is typed, the
      quantity set is at least 1. */
  lemma QuantityChangeKeepsValid(items: seq<CartItem>, id: string, text: string, ok: bool)
    requires Valid(items)
    ensures Valid(QuantityChange(items, id, text, ok).items)
  {
    if ok && Find(items, id).Some? {
      UpdateKeepsValid(items, QuantityChange(items, id, text, ok).items, id, TypedQuantity(text));
    }
  }

  /** Delete keeps the cart invariant: what stays was already in the cart. */
  lemma DeleteKeepsValid(items: seq<CartItem>, id: string, ok: bool)
    requires Valid(items)
    ensures Valid(Delete(items, id, ok).items)
  {
    var r := Remove(items, id);
    forall k | 0 <= k < |r|
      ensures r[k].quantity >= 1 && r[k].subtotal == r[k].price * r[k].quantity
    {
      assert multiset(r)[r[k]] > 0;
      assert r[k] in multiset(items);
    }
  }

  /** How many items carry this id. */
  function Count(items: seq<CartItem>, id: string): nat {
    if items == [] then 0 else (if items[0].id == id then 1 else 0) + Count(items[1..], id)
  }

  /** The sum of the subtotals of the items with this id. */
  function SubtotalOf(items: seq<CartItem>, id: string): int {
    if items == [] then 0 else (if items[0].id == id then items[0].subtotal else 0) + SubtotalOf(items[1..], id)
  }

  /** The sum of the prices of the items with this id. */
  function PriceOf(items: seq<CartItem>, id: string): int {
    if items == [] then 0 else (if items[0].id == id then items[0].price else 0) + PriceOf(items[1..], id)
  }

  /** Deleting an id lowers the total by exactly the subtotals it removes. */
  lemma {:induction false} TotalAfterRemove(items: seq<CartItem>, id: string)
    ensures Total(Remove(items, id)) == Total(items) - SubtotalOf(items, id)
  {
    if items != [] {
      TotalAfterRemove(items[1..], id);
    }
  }

  /** Setting the quantity of an id to `q` replaces its subtotals by
      `q` × its prices in the total. */
  lemma {:induction false} TotalAfterUpdate(before: seq<CartItem>, after: seq<CartItem>, id: string, q: int)
    requires UpdatedOnly(before, after, id, q)
    ensures Total(after) == Total(before) - SubtotalOf(before, id) + q * PriceOf(before, id)
  {
    if before != [] {
      assert UpdatedOnly(before[1..], after[1..], id, q);
      TotalAfterUpdate(before[1..], after[1..], id, q);
      var p := if before[0].id == id then before[0].price else 0;
      assert q * PriceOf(before, id) == q * p + q * PriceOf(before[1..], id);
    }
  }

  /** Updating keeps how many items hold each id. */
  lemma {:induction false} CountAfterUpdate(before: seq<CartItem>, after: seq<CartItem>, id: string, q: int)
    requires UpdatedOnly(before, after, id, q)
    ensures Count(after, id) == Count(before, id)
  {
    if before != [] {
      assert UpdatedOnly(before[1..], after[1..], id, q);
      CountAfterUpdate(before[1..], after[1..], id, q);
    }
  }

  /** With the id held by one item, the ones it sums over are just that item. */
  lemma {:induction false} SingleHolder(items: seq<CartItem>, id: string, k: nat)
    requires k < |items| && items[k].id == id && Count(items, id) == 1
    ensures SubtotalOf(items, id) == items[k].subtotal && PriceOf(items, id) == items[k].price
  {
    if k == 0 {
      NoHolder(items[1..], id);
    } else {
      if items[0].id == id {
        assert items[1..][k - 1].id == id;
        HolderCounts(items[1..], id, k - 1);
        assert false;
      }
      SingleHolder(items[1..], id, k - 1);
    }
  }

  lemma {:induction false} NoHolder(items: seq<CartItem>, id: string)
    requires Count(items, id) == 0
    ensures SubtotalOf(items, id) == 0 && PriceOf(items, id) == 0
  {
    if items != [] {
      NoHolder(items[1..], id);
    }
  }

  lemma {:induction false} HolderCounts(items: seq<CartItem>, id: string, k: nat)
    requires k < |items| && items[k].id == id
    ensures Count(items, id) >= 1
  {
    if k > 0 {
      HolderCounts(items[1..], id, k - 1);
    }
  }

  /** With the id held by one item, setting its quantity to `q` replaces
      that item's subtotal by price × `q` in the total. */
  lemma TotalAfterUniqueUpdate(before: seq<CartItem>, after: seq<CartItem>, id: string, k: nat, q: int)
    requires UpdatedOnly(before, after, id, q)
    requires k < |before| && before[k].id == id && Count(before, id) == 1
    ensures Total(after) + before[k].subtotal == Total(before) + before[k].price * q
  {
    SingleHolder(before, id, k);
    TotalAfterUpdate(before, after, id, q);
    assert q * before[k].price == before[k].price * q;
  }

  lemma MulStep(p: int, n: int)
    ensures p * (n + 1) == p * n + p
  {
  }

  /** Where the id names one item whose subtotal is price × quantity, a
      successful plus raises the total by that item's price. */
  lemma PlusRaisesTotalByPrice(items: seq<CartItem>, id: string, k: nat)
    requires k < |items| && items[k].id == id && Count(items, id) == 1
    requires items[k].subtotal == items[k].price * items[k].quantity
    ensures Total(Plus(items, id, true).items) == Total(items) + items[k].price
  {
    var p, n := items[k].price, items[k].quantity;
    var after := Plus(items, id, true).items;
    FindUnique(items, id, k);
    assert UpdatedOnly(items, after, id, n + 1);
    TotalAfterUniqueUpdate(items, after, id, k, n + 1);
    assert Total(after) + p * n == Total(items) + p * (n + 1);
    MulStep(p, n);
  }

  /** Where the id names one item with quantity above 1 whose subtotal is
      price × quantity, a successful minus lowers the total by its price. */
  lemma MinusLowersTotalByPrice(items: seq<CartItem>, id: string, k: nat)
    requires k < |items| && items[k].id == id && Count(items, id) == 1
    requires items[k].subtotal == items[k].price * items[k].quantity && items[k].quantity > 1
    ensures Total(Minus(items, id, true).items) == Total(items) - items[k].price
  {
    var p, n := items[k].price, items[k].quantity;
    var after := Minus(items, id, true).items;
    FindUnique(items, id, k);
    assert UpdatedOnly(items, after, id, n - 1);
    TotalAfterUniqueUpdate(items, after, id, k, n - 1);
    assert Total(after) + p * n == Total(items) + p * (n - 1);
    MulStep(p, n - 1);
  }

  /** When only one item has the id, `find` returns that item. */
  lemma {:induction false} FindUnique(items: seq<CartItem>, id: string, k: nat)
    requires k < |items| && items[k].id == id && Count(items, id) == 1
    ensures Find(items, id) == Some(items[k])
  {
    if k == 0 {
    } else {
      if items[0].id == id {
        HolderCounts(items[1..], id, k - 1);
        assert false;
      }
      FindUnique(items[1..], id, k - 1);
    }
  }

  /** On a valid cart, a successful minus followed by a successful plus on
      an item with quantity above 1 and an id of its own restores the cart. */
  lemma MinusThenPlusRestores(items: seq<CartItem>, id: string, k: nat)
    requires Valid(items) && k < |items| && items[k].id == id && Count(items, id) == 1
    requires items[k].quantity > 1
    ensures Plus(Minus(items, id, true).items, id, true).items == items
  {
    FindUnique(items, id, k);
    var q := items[k].quantity;
    var lowered := Minus(items, id, true).items;
    assert UpdatedOnly(items, lowered, id, q - 1);
    assert lowered[k] == WithQuantity(items[k], q - 1);
    CountAfterUpdate(items, lowered, id, q - 1);
    FindUnique(lowered, id, k);
    var back := Plus(lowered, id, true).items;
    assert UpdatedOnly(lowered, back, id, q);
    forall j | 0 <= j < |items|
      ensures back[j] == items[j]
    {
      if items[j].id == id {
        HolderIsUnique(items, id, j, k);
      }
    }
  }

  lemma {:induction false} HolderIsUnique(items: seq<CartItem>, id: string, j: nat, k: nat)
    requires j < |items| && k < |items| && items[j].id == id && items[k].id == id && Count(items, id) == 1
    ensures j == k
  {
    if j != k {
      if j == 0 || k == 0 {
        HolderCounts(items[1..], id, (if j == 0 then k else j) - 1);
        assert false;
      } else {
        if items[0].id == id {
          HolderCounts(items[1..], id, j - 1);
          assert false;
        }
        HolderIsUnique(items[1..], id, j - 1, k - 1);
      }
    }
  }

  /** Pressing minus `n` times, each acknowledged by the server: the items
      and the number of requests sent. */
  function PressMinus(items: seq<CartItem>, id: string, n: nat): (seq<CartItem>, nat)
    decreases n
  {
    if n == 0 then (items, 0)
    else
      var step := Minus(items, id, true);
      var (after, sent) := PressMinus(step.items, id, n - 1);
      (after, sent + (if step.request.Some? then 1 else 0))
  }

  /** A valid one-item cart with quantity q > n ends at quantity q − n with
      subtotal price × (q − n), after exactly n update requests. */
  lemma {:induction false} RepeatedMinus(item: CartItem, n: nat)
    requires item.quantity > n && item.subtotal == item.price * item.quantity
    ensures PressMinus([item], item.id, n) == ([WithQuantity(item, item.quantity - n)], n)
    decreases n
  {
    if n > 0 {
      var lowered := WithQuantity(item, item.quantity - 1);
      var step := Minus([item], item.id, true);
      assert UpdatedOnly([item], step.items, item.id, item.quantity - 1);
      assert step.items == [lowered] && step.request.Some?;
      RepeatedMinus(lowered, n - 1);
      assert PressMinus([item], item.id, n) == (PressMinus([lowered], item.id, n - 1).0, PressMinus([lowered], item.id, n - 1).1 + 1);
      assert WithQuantity(lowered, lowered.quantity - (n - 1)) == WithQuantity(item, item.quantity - n);
    }
  }

  /** Price 23500, quantity 12, nine presses of minus: quantity 3, subtotal
      70500, nine update calls. */
  lemma NineMinusPresses(item: CartItem)
    requires item.price == 23500 && item.quantity == 12 && item.subtotal == 282000
    ensures PressMinus([item], item.id, 9).0[0].quantity == 3
    ensures PressMinus([item], item.id, 9).0[0].subtotal == 70500
    ensures PressMinus([item], item.id, 9).1 == 9
  {
    RepeatedMinus(item, 9);
  }

  /** Once the quantity is 1, minus sends nothing and changes nothing. */
  lemma MinusStopsAtOne(items: seq<CartItem>, id: string, ok: bool)
    requires Find(items, id).Some? && Find(items, id).value.quantity == 1
    ensures Minus(items, id, ok) == Step(items, None)
  {
  }
}

=== FILE: cart_screen.dfy ===
/** The delete confirmation on the cart screen (src/Screens/Cart/CartScreen.tsx):
    a swipe only records the id and opens the dialog; confirming hands the
    id to the controller's delete and shows the success alert at once,
    because the delete is not awaited. */
module CartScreen {
  import opened Wrappers
  import CartController

  /** `showDeleteAlert`, `itemToDelete`, `showSuccessAlert`. */
  datatype Dialog = Dialog(showDelete: bool, pending: Option<string>, showSuccess: bool)

  /** The screen: the dialog over the controller's items. */
  datatype Screen = Screen(items: seq<CartController.CartItem>, dialog: Dialog)

  function Initial(items: seq<CartController.CartItem>): (s: Screen)
    ensures s.items == items && !s.dialog.showDelete && s.dialog.pending.None? && !s.dialog.showSuccess
  {
    Screen(items, Dialog(false, None, false))
  }

  /** `handleDelete(id)`: records the id and opens the dialog; the items
      and the success alert are untouched. */
  function AskDelete(s: Screen, id: string): (r: Screen)
    ensures r.items == s.items
    ensures r.dialog.showDelete && r.dialog.pending == Some(id)
    ensures r.dialog.showSuccess == s.dialog.showSuccess
  {
    s.(dialog := s.dialog.(pending := Some(id), showDelete := true))
  }

  /** `if (itemToDelete)`: a pending id that is present and non-empty. */
  predicate HasTarget(d: Dialog) {
    d.pending.Some? && d.pending.value != []
  }

  /** What `confirmDelete` did: the new screen and the id handed to
      `deleteItem`, if any. */
  datatype Confirmed = Confirmed(screen: Screen, deleted: Option<string>)

  /** `confirmDelete`, with `ok` the server's answer to the delete it may
      trigger: the controller's delete runs exactly when an id is pending,
      and in every case the dialog closes, the pending id is cleared and
      the success alert shows. */
  function ConfirmDelete(s: Screen, ok: bool): (r: Confirmed)
    ensures r.deleted.Some? <==> HasTarget(s.dialog)
    ensures r.deleted.Some? ==> r.deleted == s.dialog.pending
    ensures HasTarget(s.dialog) ==>
      r.screen.items == CartController.Delete(s.items, s.dialog.pending.value, ok).items
    ensures !HasTarget(s.dialog) ==> r.screen.items == s.items
    ensures r.screen.dialog == Dialog(false, None, true)
  {
    var items := if HasTarget(s.dialog) then CartController.Delete(s.items, s.dialog.pending.value, ok).items else s.items;
    Confirmed(Screen(items, Dialog(false, None, true)), if HasTarget(s.dialog) then s.dialog.pending else None)
  }

  /** `cancelDelete`: closes the dialog and forgets the id; nothing is deleted. */
  function CancelDelete(s: Screen): (r: Screen)
    ensures r.items == s.items
    ensures !r.dialog.showDelete && r.dialog.pending.None?
    ensures r.dialog.showSuccess == s.dialog.showSuccess
  {
    s.(dialog := s.dialog.(showDelete := false, pending := None))
  }

  /** The success alert's OK: hides that alert and nothing else. */
  function DismissSuccess(s: Screen): (r: Screen)
    ensures !r.dialog.showSuccess
    ensures r.(dialog := r.dialog.(showSuccess := s.dialog.showSuccess)) == s
  {
    s.(dialog := s.dialog.(showSuccess := false))
  }

  /** Asking and then cancelling leaves the items and the success alert as
      they were, with no dialog open and no id pending. */
  lemma AskThenCancel(s: Screen, id: string)
    ensures CancelDelete(AskDelete(s, id)) == s.(dialog := Dialog(false, None, s.dialog.showSuccess))
  {
  }

  /** Swiping an item with a non-empty id and confirming with the server's
      agreement removes exactly the items with that id, keeps the rest in
      order, and lowers the footer total by their subtotals. */
  lemma AskThenConfirmRemoves(s: Screen, id: string)
    requires id != []
    ensures var r := ConfirmDelete(AskDelete(s, id), true);
      && r.deleted == Some(id)
      && r.screen.items == CartController.Remove(s.items, id)
      && CartController.Total(r.screen.items) == CartController.Total(s.items) - CartController.SubtotalOf(s.items, id)
  {
    CartController.TotalAfterRemove(s.items, id);
  }

  /** An empty id is falsy, so confirming it deletes nothing, yet the
      success alert still shows. */
  lemma EmptyIdDeletesNothing(s: Screen, ok: bool)
    ensures var r := ConfirmDelete(AskDelete(s, []), ok);
      r.deleted.None? && r.screen.items == s.items && r.screen.dialog.showSuccess
  {
  }
}

=== FILE: cart_service.dfy ===
/** `CartService` (src/services/cart.ts): the method, path and body of each
    cart operation, and the reading of a request back into its operation. */
module CartService {
  import opened Wrappers
  import opened Text
  import opened JsonData
  import opened Api

  /** `partId: string | number` */
  datatype PartId = PartIdText(text: string) | PartIdNumber(number: int)

  datatype CartOp =
    | GetCart
    | AddToCart(partId: PartId, quantity: int)
    | UpdateCartItem(itemId: string, quantity: int)
    | RemoveFromCart(itemId: string)
    | ClearCart

  function PartIdJson(p: PartId): Json {
    match p
    case PartIdText(t) => JStr(t)
    case PartIdNumber(n) => JNum(n)
  }

  const CartPath := "/cart"
  const CartItemPrefix := "/cart/"

  /** The request each `CartService` method issues. The request bodies are
      objects, hence always truthy, so they are always attached. */
  function ToRequest(op: CartOp): (r: Request)
    ensures op.AddToCart? || op.UpdateCartItem? <==> r.body.Some?
    ensures op.RemoveFromCart? || op.ClearCart? <==> r.verb == DELETE
    ensures StripPrefix(r.endpoint, CartPath).Some?
  {
    match op
    case GetCart =>
      assert CartPath == CartPath + [];
      StripPrefixOfConcat(CartPath, []);
      Get(CartPath)
    case AddToCart(p, q) =>
      StripPrefixOfConcat(CartPath, "/add");
      Post("/cart/add", Some(JObj([("partId", PartIdJson(p)), ("quantity", JNum(q))])))
    case UpdateCartItem(id, q) =>
      assert CartItemPrefix + id == CartPath + ("/" + id);
      StripPrefixOfConcat(CartPath, "/" + id);
      Put(CartItemPrefix + id, Some(JObj([("quantity", JNum(q))])))
    case RemoveFromCart(id) =>
      assert CartItemPrefix + id == CartPath + ("/" + id);
      StripPrefixOfConcat(CartPath, "/" + id);
      Delete(CartItemPrefix + id)
    case ClearCart =>
      StripPrefixOfConcat(CartPath, "/clear");
      Delete("/cart/clear")
  }

  function PartIdOf(j: Json): Option<PartId> {
    match j
    case JStr(t) => Some(PartIdText(t))
    case JNum(n) => Some(PartIdNumber(n))
    case _ => None
  }

  /** The operation a request stands for, as a server routing it would read it. */
  function FromRequest(r: Request): Option<CartOp> {
    match r.verb
    case GET => if r.endpoint == CartPath && r.body.None? then Some(GetCart) else None
    case POST =>
      if r.endpoint != "/cart/add" then None
      else (match r.body
        case Some(JObj(fields)) =>
          if |fields| == 2 && fields[0].0 == "partId" && fields[1].0 == "quantity" && fields[1].1.JNum? then
            match PartIdOf(fields[0].1)
            case Some(p) => Some(AddToCart(p, fields[1].1.n))
            case None => None
          else None
        case _ => None)
    case PUT =>
      var id := StripPrefix(r.endpoint, CartItemPrefix);
      if id.None? then None
      else (match r.body
        case Some(JObj(fields)) =>
          if |fields| == 1 && fields[0].0 == "quantity" && fields[0].1.JNum? then
            Some(UpdateCartItem(id.value, fields[0].1.n))
          else None
        case _ => None)
    case DELETE =>
      if r.body.Some? then None
      else match StripPrefix(r.endpoint, CartItemPrefix)
        case Some(id) => if id == "clear" then Some(ClearCart) else Some(RemoveFromCart(id))
        case None => None
  }

  /** Every operation is read back from its request, except that removing an
      item whose id is `clear` is indistinguishable from clearing the cart. */
  lemma RoundTrip(op: CartOp)
    ensures FromRequest(ToRequest(op)) == if op == RemoveFromCart("clear") then Some(ClearCart) else Some(op)
  {
    match op
    case GetCart =>
    case AddToCart(p, q) =>
      var fields := [("partId", PartIdJson(p)), ("quantity", JNum(q))];
      assert PartIdOf(PartIdJson(p)) == Some(p);
    case UpdateCartItem(id, q) =>
      StripPrefixOfConcat(CartItemPrefix, id);
    case RemoveFromCart(id) =>
      StripPrefixOfConcat(CartItemPrefix, id);
    case ClearCart =>
      assert "/cart/clear" == CartItemPrefix + "clear";
      StripPrefixOfConcat(CartItemPrefix, "clear");
  }

  /** `clearCart()` sends the very request `removeFromCart("clear")` sends. */
  lemma ClearIsRemoveOfClear()
    ensures ToRequest(ClearCart) == ToRequest(RemoveFromCart("clear"))
  {
    assert "/cart/clear" == CartItemPrefix + "clear";
  }
}

=== FILE: json.dfy ===
/** The JSON values the request layer parses and inspects, with JavaScript's
    truthiness and property reads on them. Numbers are integers here. */
module JsonData {
  import opened Wrappers

  datatype Json =
    | JNull
    | JBool(b: bool)
    | JNum(n: int)
    | JStr(s: string)
    | JArr(items: seq<Json>)
    | JObj(fields: seq<(string, Json)>)

  /** `null`, `false`, `0` and `""` are falsy; arrays and objects are truthy. */
  predicate Truthy(j: Json) {
    match j
    case JNull => false
    case JBool(b) => b
    case JNum(n) => n != 0
    case JStr(s) => s != []
    case _ => true
  }

  /** An own property of a parsed object. `JSON.parse` keeps the last value of
      a key that appears twice. */
  function Lookup(fields: seq<(string, Json)>, key: string): (r: Option<Json>)
    ensures r.Some? <==> exists i :: 0 <= i < |fields| && fields[i].0 == key
    ensures r.Some? ==> (key, r.value) in fields
  {
    if fields == [] then None
    else if fields[|fields| - 1].0 == key then Some(fields[|fields| - 1].1)
    else
      var r := Lookup(fields[..|fields| - 1], key);
      assert forall i :: 0 <= i < |fields| - 1 ==> fields[..|fields| - 1][i] == fields[i];
      r
  }

  /** Reading `j.key`; `None` is `undefined`. Strings, numbers, booleans and
      arrays have no `error` or `message` property. Reading a property of
      `null` throws a `TypeError`, which callers model separately. */
  function Property(j: Json, key: string): Option<Json>
  {
    match j
    case JObj(fields) => Lookup(fields, key)
    case _ => None
  }
}

=== FILE: login_screen.dfy ===
/** `LoginScreen.handleLogin` (src/Screens/Auth/LoginScreen.tsx): the
    form guard, the loading flag around the login call, and what the screen
    does with the result. The result of `authService.login` is an input. */
module LoginScreen {
  import opened Wrappers
  import AuthService

  datatype Route = LoginRoute | MainTabs

  datatype Form = Form(
    email: string,
    password: string,
    loading: bool,
    alertVisible: bool,
    alertMessage: string,
    route: Route)

  /** The argument the screen passes to `login`: `{ email, password }`. */
  datatype LoginCall = LoginCall(email: string, password: string)

  /** One press of the login button: the screen while the call is awaited
      (when there is a call), the call, and the screen once the handler ends. */
  datatype Press = Press(during: Option<Form>, call: Option<LoginCall>, after: Form)

  const MissingFields := "Email dan password harus diisi"

  /** The screen as it mounts: both fields empty, not loading, no alert,
      and still on the login route. */
  function InitialForm(): (f: Form)
    ensures f.email == [] && f.password == []
    ensures !f.loading && !f.alertVisible && f.alertMessage == []
    ensures f.route == LoginRoute
  {
    Form([], [], false, false, [], LoginRoute)
  }

  /** `handleLogin()` */
  function HandleLogin(f: Form, result: AuthService.LoginResult): (p: Press)
    ensures p.call.Some? <==> f.email != [] && f.password != []
    ensures p.call.Some? ==> p.call == Some(LoginCall(f.email, f.password))
    ensures p.call.None? ==>
      p.during.None? && p.after == f.(alertMessage := MissingFields, alertVisible := true)
    ensures p.call.Some? ==> p.during == Some(f.(loading := true)) && !p.after.loading
    ensures p.call.Some? && result.success ==>
      p.after == f.(loading := false, route := MainTabs)
    ensures p.call.Some? && !result.success ==>
      p.after.route == f.route && p.after.alertVisible &&
      p.after.alertMessage == (if result.message.Some? && result.message.value != [] then result.message.value
                               else AuthService.LoginFailed)
    ensures p.after.email == f.email && p.after.password == f.password
  {
    if f.email == [] || f.password == [] then
      Press(None, None, f.(alertMessage := MissingFields, alertVisible := true))
    else
      var waiting := f.(loading := true);
      var done := waiting.(loading := false);
      if result.success then
        Press(Some(waiting), Some(LoginCall(f.email, f.password)), done.(route := MainTabs))
      else
        var message := if result.message.Some? && result.message.value != [] then result.message.value else AuthService.LoginFailed;
        Press(Some(waiting), Some(LoginCall(f.email, f.password)), done.(alertMessage := message, alertVisible := true))
  }

  /** The alert's OK button. */
  function DismissAlert(f: Form): (g: Form)
    ensures !g.alertVisible
    ensures g.(alertVisible := f.alertVisible) == f
  {
    f.(alertVisible := false)
  }

  /** Pressing login on the untouched screen makes no call: it only shows
      the missing-fields alert, whatever the service would have answered. */
  lemma PressOnFreshScreen(result: AuthService.LoginResult)
    ensures var p := HandleLogin(InitialForm(), result);
      p.call.None? && p.during.None? && p.after.route == LoginRoute &&
      p.after.alertVisible && p.after.alertMessage == MissingFields && !p.after.loading
  {
  }

  /** A rejected press followed by the alert's OK leaves an idle form as it
      was, apart from the message, so the user can correct the fields and
      press again; the same holds when a field was empty. */
  lemma RejectedPressThenOk(f: Form, result: AuthService.LoginResult)
    requires !f.loading && !f.alertVisible
    requires !result.success || f.email == [] || f.password == []
    ensures var g := DismissAlert(HandleLogin(f, result).after);
      g.(alertMessage := f.alertMessage) == f
  {
  }
}

=== FILE: notification_service.dfy ===
/** `NotificationService` (src/services/notification.ts): the paged list
    request and the mark-as-read request. */
module NotificationService {
  import opened Wrappers
  import opened Text
  import opened Query
  import opened Api

  const NotificationKeys: seq<string> := ["page", "limit"]

  /** The query value of `page` or `limit`: present only when non-zero. */
  function NotificationParam(page: Option<int>, limit: Option<int>, key: string): Option<string> {
    var n := if key == "page" then page else if key == "limit" then limit else None;
    if n.Some? && n.value != 0 then Some(IntToString(n.value)) else None
  }

  /** The pairs `getNotifications` appends: the non-zero ones among page and
      limit, page first. */
  function NotificationPairs(page: Option<int>, limit: Option<int>): (pairs: seq<Pair>)
    ensures forall i :: 0 <= i < |pairs| ==>
      pairs[i].0 in NotificationKeys && NotificationParam(page, limit, pairs[i].0) == Some(pairs[i].1)
    ensures forall k :: k in NotificationKeys && NotificationParam(page, limit, k).Some? ==>
      exists i :: 0 <= i < |pairs| && pairs[i].0 == k
    ensures InKeyOrder(pairs, NotificationKeys)
  {
    Collect(NotificationKeys, k => NotificationParam(page, limit, k))
  }

  /** `getNotifications(page, limit)` */
  function GetNotifications(page: Option<int>, limit: Option<int>, encode: string -> string): (r: Request)
    ensures r.verb == GET && r.body.None?
    ensures NotificationPairs(page, limit) == [] ==> r.endpoint == "/notifications"
    ensures NotificationPairs(page, limit) != [] ==>
      r.endpoint == "/notifications" + "?" + Serialize(NotificationPairs(page, limit), encode)
  {
    Get(Endpoint("/notifications", NotificationPairs(page, limit), encode))
  }

  /** Both present and non-zero: page comes before limit; neither: the bare path. */
  lemma NotificationQueryShape(page: Option<int>, limit: Option<int>, encode: string -> string)
    ensures NotificationParam(page, limit, "page").Some? && NotificationParam(page, limit, "limit").Some? ==>
      NotificationPairs(page, limit) ==
        [("page", IntToString(page.value)), ("limit", IntToString(limit.value))]
    ensures NotificationParam(page, limit, "page").None? && NotificationParam(page, limit, "limit").None? ==>
      GetNotifications(page, limit, encode).endpoint == "/notifications"
  {
    var pairs := NotificationPairs(page, limit);
    if pairs != [] {
      assert pairs[0].0 in NotificationKeys;
    }
    if NotificationParam(page, limit, "page").Some? && NotificationParam(page, limit, "limit").Some? {
      assert "page" in NotificationKeys && "limit" in NotificationKeys;
      var i :| 0 <= i < |pairs| && pairs[i].0 == "page";
      var j :| 0 <= j < |pairs| && pairs[j].0 == "limit";
    }
  }

  /** `markAsRead(id)`: PUT `/notifications/<id>/read` with no body. */
  function MarkAsRead(id: string): (r: Request)
    ensures r.verb == PUT && r.body.None?
    ensures StripPrefix(r.endpoint, "/notifications/") == Some(id + "/read")
  {
    assert "/notifications/" + id + "/read" == "/notifications/" + (id + "/read");
    StripPrefixOfConcat("/notifications/", id + "/read");
    Put("/notifications/" + id + "/read", None)
  }

  /** The notification id a mark-as-read request names, read back from its endpoint. */
  function MarkedId(r: Request): Option<string> {
    if r.verb != PUT then None
    else match StripPrefix(r.endpoint, "/notifications/")
      case None => None
      case Some(rest) => StripSuffix(rest, "/read")
  }

  /** Every id, including ones that contain `/` or end in `/read`, is read back exactly. */
  lemma MarkAsReadRoundTrip(id: string)
    ensures MarkAsRead(id).body.None?
    ensures MarkedId(MarkAsRead(id)) == Some(id)
  {
    assert "/notifications/" + id + "/read" == "/notifications/" + (id + "/read");
    StripPrefixOfConcat("/notifications/", id + "/read");
    StripSuffixOfConcat(id, "/read");
  }
}

=== FILE: parts_screen.dfy ===
/** The parts catalogue's state (`usePartsScreen`,
    src/Screens/Parts/hooks/usePartsScreen.ts): a cart counter, the detail
    and quantity modals, and the product they show. The quantity modal is
    wired with `onConfirm` = the confirm handler here and `onClose` = the
    quantity modal's close handler. */
module PartsScreen {
  import opened Wrappers
  import opened Text
  import QuantityModal

  datatype Product = Product(
    id: string,
    image: string,
    partNumber: string,
    name: string,
    description: string,
    price: int,
    isReady: bool)

  datatype Parts = Parts(cartCount: int, detailVisible: bool, quantityVisible: bool, selected: Option<Product>)

  function Initial(): (s: Parts)
    ensures s.cartCount == 3 && !s.detailVisible && !s.quantityVisible && s.selected.None?
  {
    Parts(3, false, false, None)
  }

  /** `handleProductPress`: selects the product and opens the detail modal;
      the counter and the quantity modal are untouched. */
  function ProductPress(s: Parts, p: Product): (r: Parts)
    ensures r.selected == Some(p) && r.detailVisible
    ensures r.cartCount == s.cartCount && r.quantityVisible == s.quantityVisible
  {
    s.(selected := Some(p), detailVisible := true)
  }

  /** `handleAddPress`: selects the product and opens the quantity modal;
      the counter and the detail modal are untouched. */
  function AddPress(s: Parts, p: Product): (r: Parts)
    ensures r.selected == Some(p) && r.quantityVisible
    ensures r.cartCount == s.cartCount && r.detailVisible == s.detailVisible
  {
    s.(selected := Some(p), quantityVisible := true)
  }

  /** `handleAddToCart` (from the detail modal): detail closes, quantity
      opens, the selection and the counter stay. */
  function AddToCart(s: Parts): (r: Parts)
    ensures !r.detailVisible && r.quantityVisible
    ensures r.selected == s.selected && r.cartCount == s.cartCount
  {
    s.(detailVisible := false, quantityVisible := true)
  }

  /** `handleConfirmQuantity(q)`: the counter grows by `q` and the selection
      is cleared; neither modal flag changes. */
  function ConfirmQuantity(s: Parts, q: int): (r: Parts)
    ensures r.cartCount == s.cartCount + q && r.selected.None?
    ensures r.detailVisible == s.detailVisible && r.quantityVisible == s.quantityVisible
  {
    s.(cartCount := s.cartCount + q, selected := None)
  }

  /** `handleCloseDetailModal`: clears only the detail flag. */
  function CloseDetail(s: Parts): (r: Parts)
    ensures !r.detailVisible && r.(detailVisible := s.detailVisible) == s
  {
    s.(detailVisible := false)
  }

  /** `handleCloseQuantityModal`: clears only the quantity flag. */
  function CloseQuantity(s: Parts): (r: Parts)
    ensures !r.quantityVisible && r.(quantityVisible := s.quantityVisible) == s
  {
    s.(quantityVisible := false)
  }

  /** Pressing confirm in the quantity modal, which shows the selected
      product (and nothing when there is none): the modal's confirm, then
      its `onConfirm` and `onClose` here when it calls them. */
  function ConfirmInModal(s: Parts, m: QuantityModal.Modal): (r: (Parts, QuantityModal.Modal))
    ensures s.selected.None? ==> r == (s, m)
    ensures s.selected.Some? && !s.selected.value.isReady ==> r == (s, m.(showAlert := true))
  {
    match s.selected
    case None => (s, m)
    case Some(p) =>
      var c := QuantityModal.Confirm(m, p.isReady);
      if c.confirmed.Some? then (CloseQuantity(ConfirmQuantity(s, c.confirmed.value)), c.modal)
      else (s, c.modal)
  }

  /** Confirming a ready product with a digit-only field adds the number
      shown (at least 1) to the counter, clears the selection, closes the
      quantity modal and resets the field to "1"; the detail flag stays. */
  lemma ConfirmGrowsCartCount(s: Parts, m: QuantityModal.Modal)
    requires s.selected.Some? && s.selected.value.isReady && AllDigits(m.quantity)
    ensures var (r, m') := ConfirmInModal(s, m);
      var n := QuantityModal.Shown(m.quantity);
      && r.cartCount == s.cartCount + (if n == 0 then 1 else n)
      && r.cartCount > s.cartCount
      && r.selected.None? && !r.quantityVisible && r.detailVisible == s.detailVisible
      && m'.quantity == "1"
  {
  }

  /** From the start, opening the quantity modal on a ready product and
      confirming the initial "1" raises the counter from 3 to 4. */
  lemma AddOneFromStart(p: Product)
    requires p.isReady
    ensures ConfirmInModal(AddPress(Initial(), p), QuantityModal.Initial()).0 ==
      Parts(4, false, false, None)
  {
    ConfirmGrowsCartCount(AddPress(Initial(), p), QuantityModal.Initial());
  }

  /** Going through the detail modal ends in the same state as pressing the
      add button, once the detail modal is closed. */
  lemma DetailThenAddMatchesAdd(s: Parts, p: Product)
    ensures AddToCart(ProductPress(s, p)) == CloseDetail(AddPress(s, p))
  {
  }
}

=== FILE: parts_service.dfy ===
/** `PartsService` (src/services/parts.ts): the catalogue list request with
    its optional query parameters, and the detail request for one part. */
module PartsService {
  import opened Wrappers
  import opened Text
  import opened Query
  import opened Api

  datatype SortBy = NmPart | Het | KdPart
  datatype SortOrder = Asc | Desc

  /** `PartsListParams`; every field is optional. */
  datatype ListParams = ListParams(
    page: Option<int>,
    limit: Option<int>,
    search: Option<string>,
    category: Option<string>,
    sortBy: Option<SortBy>,
    order: Option<SortOrder>)

  /** The order in which `getPartsList` appends its parameters. */
  const ListKeys: seq<string> := ["page", "limit", "search", "category", "sortBy", "order"]

  function SortByText(s: SortBy): string {
    match s
    case NmPart => "nm_part"
    case Het => "het"
    case KdPart => "kd_part"
  }

  function OrderText(o: SortOrder): string {
    match o
    case Asc => "asc"
    case Desc => "desc"
  }

  /** `if (n) ... n.toString()`: a number parameter counts only when non-zero. */
  function NumberParam(n: Option<int>): Option<string> {
    if n.Some? && n.value != 0 then Some(IntToString(n.value)) else None
  }

  /** A string parameter counts only when non-empty. */
  function TextParam(s: Option<string>): Option<string> {
    if s.Some? && s.value != [] then s else None
  }

  /** The query value parameter `key` contributes; `None` when `params` is
      missing or the parameter is absent or falsy. */
  function ListParam(params: Option<ListParams>, key: string): Option<string> {
    match params
    case None => None
    case Some(p) =>
      if key == "page" then NumberParam(p.page)
      else if key == "limit" then NumberParam(p.limit)
      else if key == "search" then TextParam(p.search)
      else if key == "category" then TextParam(p.category)
      else if key == "sortBy" then (if p.sortBy.Some? then Some(SortByText(p.sortBy.value)) else None)
      else if key == "order" then (if p.order.Some? then Some(OrderText(p.order.value)) else None)
      else None
  }

  /** The pairs `getPartsList` appends: exactly the truthy parameters, each
      with its value, in the order page, limit, search, category, sortBy,
      order. */
  function ListPairs(params: Option<ListParams>): (pairs: seq<Pair>)
    ensures forall i :: 0 <= i < |pairs| ==> pairs[i].0 in ListKeys && ListParam(params, pairs[i].0) == Some(pairs[i].1)
    ensures forall k :: k in ListKeys && ListParam(params, k).Some? ==> exists i :: 0 <= i < |pairs| && pairs[i].0 == k
    ensures InKeyOrder(pairs, ListKeys)
  {
    Collect(ListKeys, k => ListParam(params, k))
  }

  /** `getPartsList(params)`: GET `/parts`, with `?` and the query only when
      some parameter is present. */
  function GetPartsList(params: Option<ListParams>, encode: string -> string): (r: Request)
    ensures r.verb == GET && r.body.None?
    ensures ListPairs(params) == [] ==> r.endpoint == "/parts"
    ensures ListPairs(params) != [] ==> r.endpoint == "/parts" + "?" + Serialize(ListPairs(params), encode)
  {
    var pairs := ListPairs(params);
    Get(Endpoint("/parts", pairs, encode))
  }

  /** With no parameter object, or only falsy parameters (page 0, empty
      search, ...), the request is the bare `/parts`. */
  lemma FalsyParamsGiveBarePath(params: Option<ListParams>, encode: string -> string)
    requires forall k :: k in ListKeys ==> ListParam(params, k).None?
    ensures GetPartsList(params, encode).endpoint == "/parts"
  {
  }

  /** The query of a list request reads back as the truthy parameters in key order. */
  lemma ListQueryReadsBack(params: Option<ListParams>, encode: string -> string, decode: string -> string)
    requires SafeEncoder(encode)
    requires forall s :: decode(encode(s)) == s
    requires ListPairs(params) != []
    ensures var e := GetPartsList(params, encode).endpoint;
      |e| > 7 && e[..7] == "/parts?" && Parse(e[7..], decode) == ListPairs(params)
  {
    var q := Serialize(ListPairs(params), encode);
    assert GetPartsList(params, encode).endpoint == "/parts" + "?" + q;
    assert ("/parts" + "?" + q)[7..] == q;
    ParseSerialize(ListPairs(params), encode, decode);
    SerializeEmpty(ListPairs(params), encode);
  }

  /** `getPartDetail(partNumber)`: GET `/parts/` followed by the part number. */
  function GetPartDetail(partNumber: string): (r: Request)
    ensures r.verb == GET && r.body.None?
    ensures StripPrefix(r.endpoint, "/parts/") == Some(partNumber)
  {
    StripPrefixOfConcat("/parts/", partNumber);
    Get("/parts/" + partNumber)
  }

  /** The part number of a detail request, read back from its endpoint. */
  function DetailPartNumber(r: Request): Option<string> {
    if r.verb == GET then StripPrefix(r.endpoint, "/parts/") else None
  }

  /** The detail request carries exactly its part number. */
  lemma DetailRoundTrip(partNumber: string)
    ensures DetailPartNumber(GetPartDetail(partNumber)) == Some(partNumber)
  {
    StripPrefixOfConcat("/parts/", partNumber);
  }

  /** No list request can be mistaken for a detail request: its endpoint is
      `/parts` or continues with `?` where a detail path has `/`. */
  lemma ListIsNotDetail(pairs: seq<Pair>, encode: string -> string)
    ensures DetailPartNumber(Get(Endpoint("/parts", pairs, encode))).None?
  {
    var e := Endpoint("/parts", pairs, encode);
    if pairs != [] {
      assert e[6] == '?';
    }
  }
}

=== FILE: quantity_modal.dfy ===
/** The quantity picker shown before adding a part to the cart
    (src/components/parts/QuantityModal.tsx). The quantity is kept as the
    text in the field; the handlers run only while a product is shown, and
    `isReady` is that product's stock flag. */
module QuantityModal {
  import opened Wrappers
  import opened Text

  /** `quantity` (the field's text) and `showAlert` (the out-of-stock alert). */
  datatype Modal = Modal(quantity: string, showAlert: bool)

  function Initial(): (m: Modal)
    ensures m.quantity == "1" && !m.showAlert
    ensures AllDigits(m.quantity) && Shown(m.quantity) == 1
  {
    Modal("1", false)
  }

  /** The number a digit-only field reads as; an empty field reads as 0. */
  function Shown(q: string): nat
    requires AllDigits(q)
  {
    if q == [] then 0 else DigitsValue(q)
  }

  /** On a digit-only field `parseInt(q) || d` is the number shown, or `d`
      when that is 0 or the field is empty. */
  lemma ParsedOr(q: string, d: int)
    ensures AllDigits(q) ==> NumberOr(ParseInt(q), d) == if Shown(q) == 0 then d else Shown(q)
  {
    if AllDigits(q) {
      ParseIntOfDigits(q);
    }
  }

  /** `handleMinus`: below 2 (including an empty field or "0") nothing
      changes; otherwise the field shows one less, written without leading
      zeros. */
  function Minus(m: Modal): (r: Modal)
    ensures r.showAlert == m.showAlert
    ensures AllDigits(m.quantity) ==> AllDigits(r.quantity)
    ensures AllDigits(m.quantity) && Shown(m.quantity) <= 1 ==> r == m
    ensures AllDigits(m.quantity) && Shown(m.quantity) > 1 ==>
      r.quantity == ToDecimal(Shown(m.quantity) - 1) && Shown(r.quantity) == Shown(m.quantity) - 1
  {
    var current := NumberOr(ParseInt(m.quantity), 1);
    ParsedOr(m.quantity, 1);
    if current > 1 then m.(quantity := IntToString(current - 1)) else m
  }

  /** `handlePlus`: an empty field or "0" becomes "1"; otherwise the field
      shows one more. */
  function Plus(m: Modal): (r: Modal)
    ensures r.showAlert == m.showAlert
    ensures AllDigits(m.quantity) ==>
      AllDigits(r.quantity) && r.quantity == ToDecimal(Shown(m.quantity) + 1) && Shown(r.quantity) == Shown(m.quantity) + 1
  {
    var current := NumberOr(ParseInt(m.quantity), 0);
    ParsedOr(m.quantity, 0);
    m.(quantity := IntToString(current + 1))
  }

  /** `handleQuantityChange(text)`: the field keeps only the typed digits. */
  function Edit(m: Modal, text: string): (r: Modal)
    ensures r.showAlert == m.showAlert
    ensures AllDigits(r.quantity)
    ensures AllDigits(text) ==> r.quantity == text
  {
    m.(quantity := KeepDigits(text))
  }

  /** The edit keeps every digit of the typed text, as many times as it was
      typed, drops every other character, and keeps the order: typing a
      then b keeps the digits of a followed by those of b. */
  lemma EditKeepsExactlyTheDigits(m: Modal, a: string, b: string, c: char)
    ensures multiset(Edit(m, a).quantity)[c] == if IsDigit(c) then multiset(a)[c] else 0
    ensures Edit(m, a + b).quantity == Edit(m, a).quantity + Edit(m, b).quantity
  {
    KeepDigitsCounts(a, c);
    KeepDigitsAppend(a, b);
  }

  /** What `handleConfirm` did: the new modal, the quantity handed to
      `onConfirm` (if it was called) and whether `onClose` was called. */
  datatype Confirmed = Confirmed(modal: Modal, confirmed: Option<int>, closed: bool)

  /** `handleConfirm`: for a part not in stock, the alert shows and nothing
      else happens; otherwise `onConfirm` gets the number shown (1 if the
      field is empty or 0), the field resets to "1" and the modal closes. */
  function Confirm(m: Modal, isReady: bool): (r: Confirmed)
    ensures !isReady ==> r == Confirmed(m.(showAlert := true), None, false)
    ensures isReady ==> r.closed && r.modal == Modal("1", m.showAlert) && r.confirmed.Some?
    ensures isReady && AllDigits(m.quantity) ==>
      r.confirmed == Some(if Shown(m.quantity) == 0 then 1 else Shown(m.quantity))
  {
    if !isReady then Confirmed(m.(showAlert := true), None, false)
    else
      var finalQty := NumberOr(ParseInt(m.quantity), 1);
      ParsedOr(m.quantity, 1);
      Confirmed(Modal("1", m.showAlert), Some(finalQty), true)
  }

  /** The stock alert's OK: hides the alert, keeps the quantity. */
  function DismissAlert(m: Modal): (r: Modal)
    ensures !r.showAlert && r.quantity == m.quantity
  {
    m.(showAlert := false)
  }

  /** Every handler keeps the field digit-only, starting from "1". */
  lemma HandlersKeepDigits(m: Modal, text: string, isReady: bool)
    requires AllDigits(m.quantity)
    ensures AllDigits(Minus(m).quantity) && AllDigits(Plus(m).quantity)
    ensures AllDigits(Edit(m, text).quantity) && AllDigits(DismissAlert(m).quantity)
    ensures AllDigits(Confirm(m, isReady).modal.quantity)
  {
  }

  /** On a digit-only field (every reachable one, by `HandlersKeepDigits`)
      a ready confirm passes a positive quantity. */
  lemma ConfirmedIsPositive(m: Modal)
    requires AllDigits(m.quantity)
    ensures Confirm(m, true).confirmed.value >= 1
  {
  }

  /** Minus undoes plus on a field written without leading zeros, and plus
      undoes minus wherever minus acts. */
  lemma PlusMinusInverse(m: Modal, n: nat)
    requires m.quantity == ToDecimal(n)
    ensures n >= 1 ==> Minus(Plus(m)) == m
    ensures n > 1 ==> Plus(Minus(m)) == m
  {
  }

  /** Minus never takes a field showing 1 or more below 1. */
  lemma MinusStaysPositive(m: Modal)
    requires AllDigits(m.quantity) && Shown(m.quantity) >= 1
    ensures Shown(Minus(m).quantity) >= 1
  {
  }
}

=== FILE: query.dfy ===
/** Query strings as the service wrappers build them with `URLSearchParams`:
    the parameters present, in a fixed key order, serialised as
    `key=value` pieces joined with `&`, and appended to the path after `?`
    only when there is at least one. Percent-encoding is the parameter
    `encode`; the application/x-www-form-urlencoded serializer never leaves
    a `&` or `=` in its output. */
module Query {
  import opened Wrappers
  import opened Text

  type Pair = (string, string)

  predicate Distinct(keys: seq<string>) {
    forall i, j :: 0 <= i < j < |keys| ==> keys[i] != keys[j]
  }

  function IndexOf(keys: seq<string>, k: string): (r: nat)
    requires k in keys
    ensures r < |keys| && keys[r] == k
  {
    if keys[0] == k then 0 else 1 + IndexOf(keys[1..], k)
  }

  /** Every pair comes from a key whose parameter gives exactly its value. */
  predicate FromKeys(pairs: seq<Pair>, keys: seq<string>, value: string -> Option<string>) {
    forall i :: 0 <= i < |pairs| ==> pairs[i].0 in keys && value(pairs[i].0) == Some(pairs[i].1)
  }

  /** Every key whose parameter is present shows up. */
  predicate Complete(pairs: seq<Pair>, keys: seq<string>, value: string -> Option<string>) {
    forall k :: k in keys && value(k).Some? ==> exists i :: 0 <= i < |pairs| && pairs[i].0 == k
  }

  /** The pairs follow the order of `keys`, each key at most once. */
  predicate InKeyOrder(pairs: seq<Pair>, keys: seq<string>) {
    forall i, j :: 0 <= i < j < |pairs| ==>
      pairs[i].0 in keys && pairs[j].0 in keys && IndexOf(keys, pairs[i].0) < IndexOf(keys, pairs[j].0)
  }

  function Head(k: string, v: Option<string>): (r: seq<Pair>) {
    if v.Some? then [(k, v.value)] else []
  }

  lemma ConsFromKeys(keys: seq<string>, value: string -> Option<string>, rest: seq<Pair>)
    requires keys != [] && FromKeys(rest, keys[1..], value)
    ensures FromKeys(Head(keys[0], value(keys[0])) + rest, keys, value)
  {
    var pairs := Head(keys[0], value(keys[0])) + rest;
    forall i | 0 <= i < |pairs|
      ensures pairs[i].0 in keys && value(pairs[i].0) == Some(pairs[i].1)
    {
      if i >= |pairs| - |rest| {
        assert pairs[i] == rest[i - (|pairs| - |rest|)];
      }
    }
  }

  lemma ConsComplete(keys: seq<string>, value: string -> Option<string>, rest: seq<Pair>)
    requires keys != [] && Complete(rest, keys[1..], value)
    ensures Complete(Head(keys[0], value(keys[0])) + rest, keys, value)
  {
    var head := Head(keys[0], value(keys[0]));
    var pairs := head + rest;
    forall k | k in keys && value(k).Some?
      ensures exists i :: 0 <= i < |pairs| && pairs[i].0 == k
    {
      if k == keys[0] {
        assert pairs[0].0 == k;
      } else {
        assert k in keys[1..];
        var i :| 0 <= i < |rest| && rest[i].0 == k;
        assert pairs[|head| + i] == rest[i];
      }
    }
  }

  lemma ConsInKeyOrder(keys: seq<string>, value: string -> Option<string>, rest: seq<Pair>)
    requires keys != [] && Distinct(keys) && InKeyOrder(rest, keys[1..])
    requires FromKeys(rest, keys[1..], value)
    ensures InKeyOrder(Head(keys[0], value(keys[0])) + rest, keys)
  {
    var head := Head(keys[0], value(keys[0]));
    var pairs := head + rest;
    forall k | k in keys[1..]
      ensures k != keys[0] && IndexOf(keys, k) == 1 + IndexOf(keys[1..], k)
    {
      var m := IndexOf(keys[1..], k);
      assert keys[m + 1] == k;
    }
    forall i, j | 0 <= i < j < |pairs|
      ensures pairs[i].0 in keys && pairs[j].0 in keys && IndexOf(keys, pairs[i].0) < IndexOf(keys, pairs[j].0)
    {
      var h := |head|;
      assert pairs[j] == rest[j - h];
      if i < h {
        assert pairs[i].0 == keys[0];
      } else {
        assert pairs[i] == rest[i - h];
      }
    }
  }

  /** The pairs a builder appends: one per key whose parameter is present and
      truthy (`value(k)` is `Some`), in the order of `keys`. */
  function Collect(keys: seq<string>, value: string -> Option<string>): (pairs: seq<Pair>)
    requires Distinct(keys)
    ensures FromKeys(pairs, keys, value)
    ensures Complete(pairs, keys, value)
    ensures InKeyOrder(pairs, keys)
  {
    if keys == [] then []
    else
      var rest := Collect(keys[1..], value);
      ConsFromKeys(keys, value, rest);
      ConsComplete(keys, value, rest);
      ConsInKeyOrder(keys, value, rest);
      Head(keys[0], value(keys[0])) + rest
  }

  /** One `key=value` piece. */
  function Piece(p: Pair, encode: string -> string): string {
    encode(p.0) + "=" + encode(p.1)
  }

  function Pieces(pairs: seq<Pair>, encode: string -> string): (r: seq<string>)
    ensures |r| == |pairs|
    ensures forall i :: 0 <= i < |pairs| ==> r[i] == Piece(pairs[i], encode)
  {
    seq(|pairs|, i requires 0 <= i < |pairs| => Piece(pairs[i], encode))
  }

  /** `URLSearchParams.toString()` */
  function Serialize(pairs: seq<Pair>, encode: string -> string): string {
    Join(Pieces(pairs, encode), '&')
  }

  lemma JoinStartsWithFirst(parts: seq<string>, sep: char)
    requires |parts| >= 1
    ensures |Join(parts, sep)| >= |parts[0]|
  {
  }

  /** The query string is empty exactly when there are no pairs. */
  lemma SerializeEmpty(pairs: seq<Pair>, encode: string -> string)
    ensures Serialize(pairs, encode) == [] <==> pairs == []
  {
    if pairs != [] {
      JoinStartsWithFirst(Pieces(pairs, encode), '&');
    }
  }

  /** `query ? `${path}?${query}` : path`: the bare path when no parameter
      is present, otherwise the path, `?` and the serialised pairs. */
  function Endpoint(path: string, pairs: seq<Pair>, encode: string -> string): (e: string)
    ensures pairs == [] ==> e == path
    ensures pairs != [] ==> e == path + "?" + Serialize(pairs, encode)
  {
    var query := Serialize(pairs, encode);
    SerializeEmpty(pairs, encode);
    if query == [] then path else path + "?" + query
  }

  /** Reading a query back as the application/x-www-form-urlencoded parser
      does: split on `&`, skip empty pieces, cut each piece at its first `=`,
      decode both sides. */
  function Parse(query: string, decode: string -> string): seq<Pair> {
    ParsePieces(Split(query, '&'), decode)
  }

  function ParsePieces(pieces: seq<string>, decode: string -> string): seq<Pair> {
    if pieces == [] then []
    else (if pieces[0] == [] then [] else [ParsePiece(pieces[0], decode)]) + ParsePieces(pieces[1..], decode)
  }

  function ParsePiece(piece: string, decode: string -> string): Pair {
    var parts := Split(piece, '=');
    (decode(parts[0]), decode(Join(parts[1..], '=')))
  }

  ghost predicate SafeEncoder(encode: string -> string) {
    forall s :: '&' !in encode(s) && '=' !in encode(s)
  }

  lemma {:induction false} ParsePiecesOfPieces(pairs: seq<Pair>, encode: string -> string, decode: string -> string)
    requires SafeEncoder(encode)
    requires forall s :: decode(encode(s)) == s
    ensures ParsePieces(Pieces(pairs, encode), decode) == pairs
  {
    if pairs != [] {
      var p := pairs[0];
      var piece := Piece(p, encode);
      SplitJoin([encode(p.0), encode(p.1)], '=');
      assert Join([encode(p.0), encode(p.1)], '=') == piece;
      assert Join([encode(p.1)], '=') == encode(p.1);
      assert ParsePiece(piece, decode) == p;
      assert Pieces(pairs, encode)[1..] == Pieces(pairs[1..], encode);
      ParsePiecesOfPieces(pairs[1..], encode, decode);
    }
  }

  /** Parsing a serialised query with the inverse of the encoder gives the
      pairs back, in order. */
  lemma {:induction false} ParseSerialize(pairs: seq<Pair>, encode: string -> string, decode: string -> string)
    requires SafeEncoder(encode)
    requires forall s :: decode(encode(s)) == s
    ensures Parse(Serialize(pairs, encode), decode) == pairs
  {
    var pieces := Pieces(pairs, encode);
    if pairs == [] {
      assert Serialize(pairs, encode) == [];
    } else {
      forall i | 0 <= i < |pieces|
        ensures '&' !in pieces[i]
      {
        assert pieces[i] == encode(pairs[i].0) + "=" + encode(pairs[i].1);
      }
      SplitJoin(pieces, '&');
      ParsePiecesOfPieces(pairs, encode, decode);
    }
  }
}

=== FILE: text.dfy ===
/** The JavaScript string and number conversions the storefront relies on:
    `parseInt`, `Number.prototype.toString`, the `/[^0-9]/g` digit filter,
    `String.prototype.split` on one character and `String.prototype.includes`. */
module Text {
  import opened Wrappers

  predicate IsDigit(c: char) {
    '0' <= c <= '9'
  }

  predicate AllDigits(s: string) {
    forall i :: 0 <= i < |s| ==> IsDigit(s[i])
  }

  function DigitValue(c: char): (d: nat)
    requires IsDigit(c)
    ensures d < 10
  {
    c as int - '0' as int
  }

  function DigitChar(d: nat): (c: char)
    requires d < 10
    ensures IsDigit(c) && DigitValue(c) == d
  {
    ('0' as int + d) as char
  }

  /** The value of a string of decimal digits, most significant digit first
      (0 for the empty string). */
  function DigitsValue(s: string): nat
    requires AllDigits(s)
  {
    if s == [] then 0 else DigitsValue(s[..|s| - 1]) * 10 + DigitValue(s[|s| - 1])
  }

  /** `n.toString()` for a non-negative integer: decimal digits without a
      leading zero, reading back as `n`. */
  function ToDecimal(n: nat): (r: string)
    ensures AllDigits(r) && |r| >= 1
    ensures r[0] == '0' <==> n == 0
    ensures DigitsValue(r) == n
    decreases n
  {
    if n < 10 then [DigitChar(n)]
    else
      var p := ToDecimal(n / 10);
      var r := p + [DigitChar(n % 10)];
      assert r[..|r| - 1] == p;
      r
  }

  /** `i.toString()` for any integer. */
  function IntToString(i: int): (r: string)
  {
    if i < 0 then "-" + ToDecimal(-i) else ToDecimal(i)
  }

  /** A leading zero does not change the value of a digit string. */
  lemma {:induction false} DigitsValueLeadingZero(s: string)
    requires AllDigits(s)
    ensures AllDigits("0" + s) && DigitsValue("0" + s) == DigitsValue(s)
  {
    if s != [] {
      var p := s[..|s| - 1];
      assert ("0" + s)[..|"0" + s| - 1] == "0" + p;
      DigitsValueLeadingZero(p);
    }
  }

  lemma {:induction false} DigitsValuePositive(s: string)
    requires AllDigits(s) && |s| >= 1 && s[0] != '0'
    ensures DigitsValue(s) >= 1
  {
    if |s| > 1 {
      DigitsValuePositive(s[..|s| - 1]);
    }
  }

  /** A digit string without a leading zero is exactly the rendering of its value. */
  lemma {:induction false} ToDecimalOfDigits(s: string)
    requires AllDigits(s) && |s| >= 1 && s[0] != '0'
    ensures ToDecimal(DigitsValue(s)) == s
  {
    if |s| > 1 {
      var p := s[..|s| - 1];
      var d := DigitValue(s[|s| - 1]);
      DigitsValuePositive(p);
      ToDecimalOfDigits(p);
      var n := DigitsValue(s);
      assert n == DigitsValue(p) * 10 + d;
      assert n >= 10;
      DivMod10(DigitsValue(p), d);
      assert n / 10 == DigitsValue(p) && n % 10 == d;
      assert DigitChar(d) == s[|s| - 1];
      assert ToDecimal(n) == ToDecimal(n / 10) + [DigitChar(n % 10)];
      assert s == p + [s[|s| - 1]];
    }
  }

  lemma DivMod10(a: nat, d: nat)
    requires d < 10
    ensures (a * 10 + d) / 10 == a && (a * 10 + d) % 10 == d
  {
  }

  /** The digit string with its leading zeros removed. */
  function StripLeadingZeros(s: string): (r: string)
  {
    if s != [] && s[0] == '0' then StripLeadingZeros(s[1..]) else s
  }

  /** Reading a digit string and writing its value back drops the leading
      zeros, and gives "0" when nothing else is left. */
  lemma {:induction false} ToDecimalDropsLeadingZeros(s: string)
    requires AllDigits(s) && |s| >= 1
    ensures ToDecimal(DigitsValue(s)) == if StripLeadingZeros(s) == [] then "0" else StripLeadingZeros(s)
  {
    if s[0] == '0' {
      assert s == "0" + s[1..];
      DigitsValueLeadingZero(s[1..]);
      if s[1..] == [] {
      } else {
        ToDecimalDropsLeadingZeros(s[1..]);
      }
    } else {
      ToDecimalOfDigits(s);
    }
  }

  /** The characters JavaScript's `parseInt` skips before the number:
      the white space and line terminators of ECMAScript. */
  predicate IsJsSpace(c: char) {
    || c == '\t' || c == '\n' || c == '\U{B}' || c == '\U{C}' || c == '\r' || c == ' '
    || c == '\U{A0}' || c == '\U{1680}' || ('\U{2000}' <= c <= '\U{200A}')
    || c == '\U{2028}' || c == '\U{2029}' || c == '\U{202F}' || c == '\U{205F}'
    || c == '\U{3000}' || c == '\U{FEFF}'
  }

  function TrimStart(s: string): (r: string)
  {
    if s != [] && IsJsSpace(s[0]) then TrimStart(s[1..]) else s
  }

  /** The longest prefix of `s` made of decimal digits. */
  function LeadingDigits(s: string): (r: string)
    ensures AllDigits(r) && |r| <= |s| && r == s[..|r|]
    ensures |r| == |s| || !IsDigit(s[|r|])
  {
    if s != [] && IsDigit(s[0]) then [s[0]] + LeadingDigits(s[1..]) else []
  }

  predicate IsHexDigit(c: char) {
    IsDigit(c) || 'a' <= c <= 'f' || 'A' <= c <= 'F'
  }

  function HexDigitValue(c: char): (d: nat)
    requires IsHexDigit(c)
    ensures d < 16
  {
    if IsDigit(c) then DigitValue(c)
    else if 'a' <= c <= 'f' then c as int - 'a' as int + 10
    else c as int - 'A' as int + 10
  }

  /** The longest prefix of `s` made of hexadecimal digits. */
  function LeadingHex(s: string): (r: string)
    ensures |r| <= |s| && forall i :: 0 <= i < |r| ==> IsHexDigit(r[i])
  {
    if s != [] && IsHexDigit(s[0]) then [s[0]] + LeadingHex(s[1..]) else []
  }

  function HexValue(s: string): nat
    requires forall i :: 0 <= i < |s| ==> IsHexDigit(s[i])
  {
    if s == [] then 0 else HexValue(s[..|s| - 1]) * 16 + HexDigitValue(s[|s| - 1])
  }

  /** JavaScript's `parseInt(s)` with no radix: skip leading white space, read
      an optional sign, then the longest run of decimal digits (hexadecimal
      after a `0x`/`0X` prefix). `None` is `NaN`: no digit was found. */
  function ParseInt(s: string): (r: Option<int>)
  {
    var t := TrimStart(s);
    var negative := t != [] && t[0] == '-';
    var u := if t != [] && (t[0] == '-' || t[0] == '+') then t[1..] else t;
    var magnitude :=
      if |u| >= 2 && u[0] == '0' && (u[1] == 'x' || u[1] == 'X') then
        var h := LeadingHex(u[2..]);
        if h == [] then None else Some(HexValue(h))
      else
        var d := LeadingDigits(u);
        if d == [] then None else Some(DigitsValue(d));
    match magnitude
    case None => None
    case Some(m) =>
      var k: int := m;
      Some(if negative then -k else k)
  }

  /** `parseInt(...) || d`: both `NaN` and `0` are falsy and give way to `d`. */
  function NumberOr(p: Option<int>, d: int): int
  {
    if p.Some? && p.value != 0 then p.value else d
  }

  /** On a string of digits only, `parseInt` is `NaN` exactly when the string
      is empty, and otherwise the digits' value. */
  lemma ParseIntOfDigits(s: string)
    ensures AllDigits(s) ==> ParseInt(s) == if s == [] then None else Some(DigitsValue(s))
  {
    if AllDigits(s) && s != [] {
      assert !IsJsSpace(s[0]);
      assert LeadingDigits(s) == s;
    }
  }

  /** `parseInt` reads back what `toString` writes. */
  lemma ParseIntOfIntToString(i: int)
    ensures ParseInt(IntToString(i)) == Some(i)
  {
    var s := IntToString(i);
    var m := if i < 0 then -i else i;
    var d := ToDecimal(m);
    assert !IsJsSpace(s[0]);
    assert LeadingDigits(d) == d;
    if i < 0 {
      assert s[1..] == d;
    }
  }

  /** `s.replace(/[^0-9]/g, '')`: the digit characters of `s`, in order. */
  function KeepDigits(s: string): (r: string)
    ensures AllDigits(r)
    ensures |r| <= |s|
    ensures AllDigits(s) ==> r == s
  {
    if s == [] then [] else (if IsDigit(s[0]) then [s[0]] else []) + KeepDigits(s[1..])
  }

  /** Filtering distributes over concatenation: the digits keep their order. */
  lemma {:induction false} KeepDigitsAppend(a: string, b: string)
    ensures KeepDigits(a + b) == KeepDigits(a) + KeepDigits(b)
  {
    if a != [] {
      assert (a + b)[0] == a[0];
      assert (a + b)[1..] == a[1..] + b;
      KeepDigitsAppend(a[1..], b);
      var h := if IsDigit(a[0]) then [a[0]] else [];
      assert KeepDigits(a + b) == h + (KeepDigits(a[1..]) + KeepDigits(b));
      assert KeepDigits(a) == h + KeepDigits(a[1..]);
    } else {
      assert a + b == b;
    }
  }

  /** Every digit of `s` survives as often as it occurs, and nothing else does. */
  lemma {:induction false} KeepDigitsCounts(s: string, c: char)
    ensures multiset(KeepDigits(s))[c] == if IsDigit(c) then multiset(s)[c] else 0
  {
    if s != [] {
      KeepDigitsCounts(s[1..], c);
      assert s == [s[0]] + s[1..];
    }
  }

  /** `s.split(sep)` for a one-character separator: the pieces between the
      separators, never containing one, at least one piece. */
  function Split(s: string, sep: char): (parts: seq<string>)
    ensures |parts| >= 1
    ensures forall i :: 0 <= i < |parts| ==> sep !in parts[i]
  {
    if s == [] then [[]]
    else
      var rest := Split(s[1..], sep);
      if s[0] == sep then [[]] + rest
      else [[s[0]] + rest[0]] + rest[1..]
  }

  /** `parts.join(sep)`. */
  function Join(parts: seq<string>, sep: char): string
  {
    if |parts| == 0 then []
    else if |parts| == 1 then parts[0]
    else parts[0] + [sep] + Join(parts[1..], sep)
  }

  /** Joining the pieces of a split gives the string back. */
  lemma {:induction false} JoinSplit(s: string, sep: char)
    ensures Join(Split(s, sep), sep) == s
  {
    if s != [] {
      JoinSplit(s[1..], sep);
      var rest := Split(s[1..], sep);
      if s[0] != sep && |rest| > 1 {
        assert ([[s[0]] + rest[0]] + rest[1..])[1..] == rest[1..];
      }
    }
  }

  lemma {:induction false} SplitCons(a: string, tail: string, sep: char)
    requires sep !in a
    ensures Split(a + tail, sep) == [a + Split(tail, sep)[0]] + Split(tail, sep)[1..]
  {
    if a != [] {
      assert (a + tail)[1..] == a[1..] + tail;
      SplitCons(a[1..], tail, sep);
      assert [a[0]] + (a[1..] + Split(tail, sep)[0]) == a + Split(tail, sep)[0];
    } else {
      var parts := Split(tail, sep);
      assert a + tail == tail;
      assert a + parts[0] == parts[0];
      assert parts == [parts[0]] + parts[1..];
    }
  }

  /** Splitting a join of separator-free pieces gives the pieces back. */
  lemma {:induction false} SplitJoin(parts: seq<string>, sep: char)
    requires |parts| >= 1
    requires forall i :: 0 <= i < |parts| ==> sep !in parts[i]
    ensures Split(Join(parts, sep), sep) == parts
  {
    if |parts| == 1 {
      SplitCons(parts[0], [], sep);
      assert parts[0] + [] == parts[0];
    } else {
      var tail := [sep] + Join(parts[1..], sep);
      assert Join(parts, sep) == parts[0] + tail;
      SplitJoin(parts[1..], sep);
      assert tail != [] && tail[0] == sep && tail[1..] == Join(parts[1..], sep);
      assert Split(tail, sep) == [[]] + Split(tail[1..], sep);
      var rest := Split(tail, sep);
      assert rest[0] == [] && rest[1..] == parts[1..];
      SplitCons(parts[0], tail, sep);
      assert parts[0] + [] == parts[0];
      assert parts == [parts[0]] + parts[1..];
    }
  }

  predicate OccursAt(s: string, t: string, i: int) {
    0 <= i && i + |t| <= |s| && s[i..i + |t|] == t
  }

  /** Past a mismatch at position 0, `t` occurs in `s` exactly when it occurs in `s[1..]`. */
  lemma OccursShift(s: string, t: string)
    requires |s| >= 1 && !OccursAt(s, t, 0)
    ensures (exists i :: OccursAt(s[1..], t, i)) <==> (exists j :: OccursAt(s, t, j))
  {
    if exists i :: OccursAt(s[1..], t, i) {
      var i :| OccursAt(s[1..], t, i);
      assert s[1..][i..i + |t|] == s[i + 1..i + 1 + |t|];
      assert OccursAt(s, t, i + 1);
    }
    if exists j :: OccursAt(s, t, j) {
      var j :| OccursAt(s, t, j);
      assert j >= 1;
      assert s[1..][j - 1..j - 1 + |t|] == s[j..j + |t|];
      assert OccursAt(s[1..], t, j - 1);
    }
  }

  /** `s.includes(t)`: true exactly when `t` occurs somewhere in `s`. */
  function Contains(s: string, t: string): (r: bool)
    ensures r <==> exists i :: OccursAt(s, t, i)
    decreases |s|
  {
    if |s| < |t| then false
    else if s[..|t|] == t then assert OccursAt(s, t, 0); true
    else
      assert !OccursAt(s, t, 0);
      OccursShift(s, t);
      Contains(s[1..], t)
  }

  /** What is left of `s` after the prefix `p`, if `s` starts with it. */
  function StripPrefix(s: string, p: string): (r: Option<string>)
    ensures r.Some? <==> |p| <= |s| && s[..|p|] == p
    ensures r.Some? ==> s == p + r.value
  {
    if |p| <= |s| && s[..|p|] == p then
      assert s == p + s[|p|..];
      Some(s[|p|..])
    else None
  }

  /** What is left of `s` before the suffix `q`, if `s` ends with it. */
  function StripSuffix(s: string, q: string): (r: Option<string>)
    ensures r.Some? <==> |q| <= |s| && s[|s| - |q|..] == q
    ensures r.Some? ==> s == r.value + q
  {
    if |q| <= |s| && s[|s| - |q|..] == q then
      assert s == s[..|s| - |q|] + q;
      Some(s[..|s| - |q|])
    else None
  }

  lemma StripPrefixOfConcat(p: string, x: string)
    ensures StripPrefix(p + x, p) == Some(x)
  {
    assert (p + x)[..|p|] == p;
    assert (p + x)[|p|..] == x;
  }

  lemma StripSuffixOfConcat(x: string, q: string)
    ensures StripSuffix(x + q, q) == Some(x)
  {
    assert (x + q)[|x + q| - |q|..] == q;
    assert (x + q)[..|x + q| - |q|] == x;
  }
}

=== FILE: wrappers.dfy ===
/** Optional values: JavaScript's `null`/`undefined` (and `NaN` where a number
    may be missing) become `None`. */
module Wrappers {

  datatype Option<+T> = None | Some(value: T) {

    /** The carried value, or `default` when there is none. */
    function GetOr(default: T): T {
      match this
      case Some(v) => v
      case None => default
    }
  }
}
